=== FILE: README.md ===
# Daily-totals report builder: a Dafny model

This project models the data logic of `app.py`, a Streamlit tool. The tool
scrapes monthly "moves" tables from a transit-company report site. For each
requested year it writes a "Daily Totals" workbook: days down the side,
months across, a `Monthly Totals` row and a `Total` column, with each day cell
marked by arrows against a prior upload and by `*` for ADA (wheelchair) jobs.
It also shows a per-month summary and mails the results.

The model covers the parts of that pipeline that compute something:

- **Years** (`parse_years_input`): comma-separated years and `lo-hi` ranges
  go in. The years within 2000..2100 come out, ascending and without
  duplicates.
- **Emails** (`validate_email_list`, `EMAIL_RE`): the input is split at `;`
  and `,`, and the pieces are trimmed and checked. The address check is
  hand-coded and proved equal to the fully anchored pattern
  `[^@\s]+@[^@\s]+\.[^@\s]+`. (`re.match` with `$` would also accept one
  trailing newline, but the pieces are stripped before they are checked, so
  none has one.)
- **Aggregate** (first half of `generate_daily_totals_excel`): for each month,
  the day totals come from the first TOTAL row, or from the column sums when
  there is none. The ADA counts come from the first Wheelchair row. The same
  totals are computed for the optional prior upload.
- **Report** (second half of `generate_daily_totals_excel`):
  - the 32 x 13 grid and its margins;
  - the text of each day cell (value, change arrow, ADA star), which is proved
    to decode back to its fields;
  - the weekend shading, computed with a proleptic Gregorian calendar (**Calendar**);
  - the loop that writes the sheet body.
- **Summary**: the per-month `Total Moves` lines and the year total. As
  written, the step raises for any month that has rows but no TOTAL row (see
  Findings). When it succeeds, the model proves the lines agree with the
  sheet's `Monthly Totals` row and its corner cell.
- **Browser**:
  - `build_driver`: the order the four browser builders are tried in, and the
    loop that keeps the first one that starts;
  - `_platform_tag`: the Chrome for Testing platform name.
- **Pipeline**: the per-year loop that skips years without data and picks the
  prior upload's rows for each year.

`Grid` holds the sums behind the table margins: row totals, column totals and
their interchange. `Text` holds the Python string operations the code relies
on: `strip`, `split`/`re.split` on a character class, `isdigit`/`int`, `str`
of a number, `upper`/`lower` and `in`.

The prior table is built with all twelve months and all 31 days, with zeros
for months the upload lacks, and every day cell is compared against it.
Every positive day of a month missing from a non-empty prior upload
therefore shows `↑` with its whole value, rather than no arrow.
`Report.MissingPriorMonthShowsIncrease` states this.

## Model

| member | source | states |
|---|---|---|
| Years.ParseYears | app.py:71-84 | The result is strictly ascending. A year is in it iff it lies in 2000..2100 and some trimmed non-empty comma-separated part contributes it. |
| Years.PartYears | app.py:74-82 | What one part contributes (one year, or the years of a `lo-hi` range) is strictly ascending. RangePartYears and NonNumericPartYears state which years a range part and a non-numeric part give. |
| Years.YearsOfPart | app.py:74-82 | The loop body for one part computes exactly that part's contribution: a dash range, a single digit string, or nothing. |
| Years.CollectHas | app.py:73-82 | A year is collected iff at least one part contributes it; parts are independent of each other. |
| Years.GatherHas | app.py:73-82 | Membership in a concatenation of per-part lists is membership in some part's list. |
| Years.RangePartYears | app.py:74-79 | For `a-b` split at the first dash with digits on both trimmed sides, y is contributed iff int(a) <= y <= int(b). This is empty when a > b. |
| Years.NonNumericPartYears | app.py:74-82 | A part that is neither a digit string nor a dash range with digit strings on both sides contributes nothing. |
| Years.Range | app.py:79 | `range(lo, hi)` has hi - lo elements, the k-th is lo + k, and y is a member iff lo <= y < hi. |
| Years.YearsBetween | app.py:77-79 | The inclusive range lo..hi: y is a member iff lo <= y <= hi. |
| Years.KeepInRange | app.py:83 | The filter keeps exactly the members that lie in 2000..2100. |
| Years.InsertSorted | app.py:84 | Inserting into an ascending duplicate-free list keeps it so and adds exactly the new element. |
| Years.SortedDistinct | app.py:84 | `sorted(set(ys))` is strictly ascending and has exactly the members of ys. |
| Years.AscendingUnique | app.py:84 | Two strictly ascending lists with the same members are equal, so the parser's result is determined by its contract. |
| Years.HeadIsLeast | app.py:84 | The head of an ascending list is at most any of its members. |
| Years.TailMembers | app.py:84 | The tail of an ascending list holds exactly the members other than its head. |
| Emails.ValidateEmails | app.py:86-91 | Success iff every trimmed non-empty piece between `;`/`,` matches the address pattern; on success returns those pieces in input order. On failure the list is non-empty and is exactly the offending pieces in input order, each as often as it occurs (Rejected, with RejectedCounts and RejectedAppend). |
| Emails.IsEmail | app.py:69 | An accepted address has at least five characters (`x@y.z`); IsEmailMatchesPattern gives its exact meaning. |
| Emails.IsEmailMatchesPattern | app.py:69 | The hand-coded check accepts a string iff it splits into `[^@\s]+ @ [^@\s]+ . [^@\s]+`. |
| Emails.AcceptedMatches | app.py:69 | Every accepted string has such a split (first direction of the equivalence). |
| Emails.MatchAccepted | app.py:69 | Every string with such a split is accepted (second direction). |
| Emails.Rejected | app.py:88 | The rejected list holds exactly the input entries that fail the check. RejectedCounts adds that each is listed as often as the input holds it, and RejectedAppend that input order is kept, as `', '.join(bad)` prints them. |
| Emails.RejectedCounts | app.py:88 | Each failing entry is listed as often as the input holds it; a passing one never. |
| Emails.RejectedAppend | app.py:88-90 | The offenders keep input order: rejecting from two lists joined is joining their rejections. |
| Text.Pieces | app.py:73 | The pieces are trimmed and contain no separator. PiecesHas gives their content: a string is a piece iff it is the non-empty strip of some part of the split. |
| Text.StripNonEmpty | app.py:73 | Stripping and dropping empty pieces yields trimmed pieces that contain no separator, and never more pieces than went in. StripNonEmptyHas, StripNonEmptyAppend and StripNonEmptyOne fix which pieces are kept and in what order. |
| Text.StripNonEmptyHas | app.py:73 | A string is kept iff it is the non-empty strip of some piece. |
| Text.StripNonEmptyAppend | app.py:73 | The kept pieces follow input order: two lists joined give their kept pieces joined. |
| Text.StripNonEmptyOne | app.py:73 | A single piece is kept, stripped, iff its strip is not empty; with StripNonEmptyAppend this fixes the result. |
| Text.PiecesHas | app.py:73 | A string is one of the pieces iff it is the non-empty strip of some part of the split. |
| Text.SplitAny | app.py:87 | Splitting yields one more piece than there are separators. No piece contains a separator, and re-joining the pieces with the separators gives back the input. |
| Text.SeparatorsNone | app.py:87 | A string with no separator characters has no separators to split at. |
| Text.SeparatorsAfterPlainPrefix | app.py:87 | The first separator found is the first in the string's list of separators. |
| Text.FirstIndexIn | app.py:75 | `split(c, 1)` cuts at the first separator: everything before it is not a separator. |
| Text.StripTrims | app.py:73 | `strip()` yields nothing exactly when the input is all whitespace, and otherwise a piece with no whitespace at either end. |
| Text.StripAvoids | app.py:73 | Stripping introduces no characters. |
| Text.StripLeftSuffix | app.py:73 | `lstrip` keeps the longest suffix that does not start with whitespace, and drops only whitespace. |
| Text.StripRightPrefix | app.py:73 | `rstrip` keeps the longest prefix that does not end with whitespace, and drops only whitespace. |
| Text.Decimal | app.py:573 | `str(n)` is a digit string without a leading zero unless n is 0. |
| Text.DigitChar | app.py:573 | Each digit character has the value it is written for. |
| Text.ValueOfDecimal | app.py:77 | `int(str(n)) == n`. |
| Text.SpanDigits | app.py:573 | Splits a string into its digit prefix and a rest that does not start with a digit; the two parts re-join to the input. |
| Text.SpanDigitsOfConcat | app.py:573 | Digits followed by a non-digit split back exactly at the boundary. |
| Text.Contains | app.py:481 | `t in s` holds iff t occurs in s at some index. |
| Text.CaseFolds | app.py:481-489 | `upper` and `lower` are idempotent, and each undoes the other's effect on case: `lower(upper(s)) == lower(s)`. |
| Aggregate.MonthlyTables | app.py:478-508 | The loops fill the new totals and ADA maps with every month's values. Prior totals exist iff a non-empty prior upload was given, and are then that upload's month totals. |
| Aggregate.YearTables | app.py:478-508 | The year tables have exactly the months 1..12, each mapped to its month's totals (or ADA counts) with exactly the days 1..31. |
| Aggregate.TotalsThroughHas | app.py:478-487 | After months 1..n the totals map holds exactly those months, each with its own totals. |
| Aggregate.AdaThroughHas | app.py:478-494 | After months 1..n the ADA map holds exactly those months, each with its own counts. |
| Aggregate.MonthTotals | app.py:479-487 | Every month's totals have exactly the days 1..31. Their values are stated by TotalRowSupplies (a TOTAL row) and SummedWithoutTotalRow (none). |
| Aggregate.MonthAda | app.py:489-494 | Every month's ADA counts have exactly the days 1..31. Their values are stated by AdaFromWheelchairRow and AdaZeroWithoutWheelchairRow. |
| Aggregate.DayValues | app.py:487 | Reading a row's day columns gives the days 1..31; TotalRowSupplies states that a missing column reads as 0. |
| Aggregate.Zeros | app.py:494 | The no-wheelchair-row map is 0 on each of the days 1..31. |
| Aggregate.RowsOfMonth | app.py:479 | A row is in the month's slice iff it is a row of the table with that month; RowsOfMonthCounts adds that each is kept as often as the table has it. |
| Aggregate.RowsOfMonthCounts | app.py:479 | The month's slice holds each row of that month exactly as many times as the table does, and no other row. |
| Aggregate.TotalRowSupplies | app.py:481-483 | When the month has a TOTAL row, the first one gives every day's total, and a day column it lacks gives 0. |
| Aggregate.SummedWithoutTotalRow | app.py:484-487 | Without a TOTAL row, a day's total is that day's column summed over all rows of the month. |
| Aggregate.FirstDesignatedIsFirst | app.py:481-483 | `iloc[0]` of the designated rows: the row picked is designated and no earlier row is. Nothing is picked exactly when no row is designated. |
| Aggregate.DesignationIgnoresCase | app.py:481-489 | Whether a label marks a TOTAL or a Wheelchair row does not depend on its case. |
| Aggregate.FirstDesignatedOfMonth | app.py:481-483 | The row picked is the first row of the month whose label carries the designation. |
| Aggregate.NoneDesignatedOfMonth | app.py:481-486 | When no row of the month carries the designation, none is picked. |
| Aggregate.ColumnSumOfMonth | app.py:485-486 | Summing a day column over the month's slice equals summing it over the whole table, counting only that month's rows. |
| Aggregate.EmptyMonthIsZero | app.py:478-494 | A month with no rows totals 0 and has no ADA count on every day. |
| Aggregate.NoRowsOfMonth | app.py:479 | A month with no rows gives an empty slice. |
| Aggregate.AdaFromWheelchairRow | app.py:489-492 | The first Wheelchair row of the month (any case) supplies the ADA counts. |
| Aggregate.AdaZeroWithoutWheelchairRow | app.py:493-494 | Without a Wheelchair row every ADA count of the month is 0. |
| Aggregate.PriorForYear | app.py:799-801 | The prior slice for a year is absent exactly when the upload has no row of that year. Otherwise it is the year slice of the upload: each row of the year as often as the upload has it, in upload order (RowsOfYear, RowsOfYearAppend). |
| Aggregate.RowsOfYear | app.py:800 | The year's slice holds each row of that year exactly as many times as the table does, and no other row. |
| Aggregate.RowsOfYearAppend | app.py:800 | The slice keeps table order: slicing two tables joined is joining their slices. |
| Aggregate.YearMonthSlice | app.py:499 | Taking the prior year's slice and then a month of it keeps exactly the upload's rows of that year and month, in upload order. |
| Aggregate.FirstDesignatedOfYearMonth | app.py:498-503 | In the year slice of an upload, the row picked for month m is the first row of that year and month in upload order that carries the designation. |
| Aggregate.PriorTotalRowSupplies | app.py:498-506 | A prior year's month with a TOTAL row takes every day's total from the first such row of that year and month in upload order. |
| Aggregate.PriorSummedWithoutTotalRow | app.py:498-506 | A prior year's month without a TOTAL row takes each day's total as that day's column summed over the upload's rows of that year and month. |
| Aggregate.MonthColumnOfYear | app.py:503-505 | Summing a month's column over the year slice equals summing it over the upload's rows of that year and month. |
| Grid.TotalsInterchange | app.py:516-519 | Adding up the column totals gives the same number as adding up the row totals. |
| Grid.SumAdd | app.py:516-519 | Summing a pointwise sum is adding the two sums. |
| Grid.SumSnoc | app.py:516-519 | Appending a value adds it to the sum. |
| Grid.SumCons | app.py:829-831 | Prepending a value adds it to the sum. |
| Grid.SumZeros | app.py:516 | A list of zeros sums to 0. |
| Report.BuildGrid | app.py:514-519 | The grid has 32 rows of 13 entries. Day d of month m is that month's total for day d. |
| Report.GridMargins | app.py:516-519 | Every `Total` entry is its row's sum over the months. Every `Monthly Totals` entry is its column's sum over the 31 days, including the corner. |
| Report.MonthlyTotals | app.py:516-519 | The `Monthly Totals` row holds each month's 31-day sum, and the corner holds the sum of those. |
| Report.Arrow | app.py:568-572 | No arrow text exactly when the change is 0. Otherwise it is a space, then `↑` iff the change is positive (`↓` iff negative), then digits. |
| Report.CellText | app.py:568-577 | Without a prior value, or when the value is unchanged, the text is just the number, plus `*` when there were ADA jobs. The text ends in `*` iff there were ADA jobs. |
| Report.DayStyle | app.py:578-582 | Never the label style. Grey iff the date exists and `weekday()` is Saturday or Sunday, so days such as 30 February are never grey. |
| Report.SheetCellAt | app.py:555-585 | A body cell is text exactly for the `Monthly Totals` label and the day cells of the twelve months; all other cells are numbers. Only column 0 has the label style, and only real dates of a day row can be grey. |
| Report.CellTextRoundTrip | app.py:568-577 | A day cell's text decodes back to the value, the signed change against the prior value (0 without one), and whether the day had ADA jobs. |
| Report.DecodeCellOf | app.py:573-577 | The value's digits, then the arrow text, then an optional star, decode back to their fields. |
| Report.DecodeChangeOf | app.py:569-572 | The arrow text of any change decodes back to that signed change. |
| Report.DecodeArrow | app.py:571-572 | ` ↑n` decodes to +n and ` ↓n` to -n. |
| Report.RenderSheet | app.py:555-585 | The sheet body has 32 rows of 14 cells, and each cell is the one the grid, the ADA map and the prior grid determine. |
| Report.RenderRow | app.py:555-585 | One body row: its label, the twelve month cells, and its total. |
| Report.RenderCell | app.py:563-582 | A month cell: a bare number in `Monthly Totals`, otherwise value, arrow and star, shaded when the date is a real weekend day. |
| Report.PriorGrid | app.py:496-528 | The prior grid exists iff a non-empty prior upload was given, and then has the grid's shape. |
| Report.PriorTotal | app.py:496-506 | The prior value of a day exists iff a non-empty prior upload was given. It is then that upload's total for the same month and day. |
| Report.GenerateDailyTotals | app.py:474-585 | The written body is the sheet of the new rows' grid, ADA counts and (when supplied) the prior rows' grid. |
| Report.DayCell | app.py:478-582 | Month m, day d reads back as that day's total and its change against the prior upload's total for the same day, 0 without a prior upload. It carries the ADA mark iff the month's Wheelchair row has jobs that day, and is grey iff the date exists and is a Saturday or Sunday. |
| Report.DayCellOfTables | app.py:514-582 | DayCell for any pair of month tables. |
| Report.GridDay | app.py:478-514 | The grid's day entries are the month totals computed from the rows. |
| Report.MissingPriorMonthShowsIncrease | app.py:496-506 | Against a non-empty prior upload lacking month m, every positive day of m reads as an increase by its whole value. |
| Report.PriorTotalOfMissingMonth | app.py:498-506 | A prior upload lacking month m supplies 0 for each of its days. |
| Calendar.Weekday | app.py:579 | `weekday()` lies in 0..6. Its value is fixed by WeekdayOfNextDay and FirstOf2000IsSaturday. |
| Calendar.DaysInMonth | app.py:579 | Months have 28 to 31 days. MonthsFillYear states that the twelve months fill the year. |
| Calendar.Ordinal | app.py:579 | A date's day count falls within its own year. OrdinalOfNextDay states that consecutive dates have consecutive counts. |
| Calendar.MonthsWithinYear | app.py:579 | The months before any month never hold more days than the year. |
| Calendar.WeekdayOfNextDay | app.py:579-580 | Consecutive dates have consecutive weekdays modulo 7, across month and year ends. |
| Calendar.OrdinalOfNextDay | app.py:579 | The day count numbers dates consecutively. |
| Calendar.DaysBeforeNextYear | app.py:579 | Day counts step by the length of the year. |
| Calendar.MonthsFillYear | app.py:579 | The twelve months fill the year. |
| Calendar.FirstOf2000IsSaturday | app.py:579 | 1 January 2000 was a Saturday. |
| Summary.MonthSummary | app.py:816-833 | Fails iff some month has rows but no TOTAL row (the TypeError of app.py:830). Otherwise it gives twelve lines, January first, each with its month's moves. The year total is then the sum of the lines and equals the corner cell of that year's sheet. |
| Summary.CountMoves | app.py:818-831 | One month's step fails iff the month has rows but no TOTAL row. Otherwise it gives the month's moves: 0 without rows, or the first TOTAL row's day sum. |
| Summary.MonthMoves | app.py:818-831 | The moves a month is meant to contribute (the corrected definition) equal the sum of that month's 31 day totals in the sheet, whichever branch applies. |
| Summary.NoTotalRowRaises | app.py:829-830 | For one month holding a single non-TOTAL row with 4 moves, the summary step fails, although the intended moves are 4. |
| Summary.AddMoves | app.py:833 | The year total is the sum of the month lines. |
| Summary.SummaryMatchesSheet | app.py:816-833 | Each month's summary moves equal that month's `Monthly Totals` cell, and their sum equals the sheet's corner. |
| Summary.MonthMovesWithoutTotalRow | app.py:828-831 | For the corrected definition: without a TOTAL row, a month's moves are the sum of its rows' moves, whether columns or rows are summed first. |
| Summary.ColumnSumIsSum | app.py:829-831 | A day column's sum is the sum of the rows' cells in that column. |
| Browser.BuildDriver | app.py:306-376 | Builders are tried in the preference's order. Every builder before the last one tried failed, and the result is the last one's outcome. Failure comes only after all four were tried, and iff every builder fails. |
| Browser.TryInOrder | app.py:365-376 | The attempt loop stops at the first success; otherwise it tries everything and returns the last error. |
| Browser.AttemptOrder | app.py:354-363 | Four attempts, the preferred builder first. AttemptOrderShape states that each builder is tried once, the others in the default order. |
| Browser.AttemptOrderShape | app.py:354-363 | Every preference tries each of the four builders exactly once: the preferred builder first, then the others in the default order. |
| Browser.PlatformTag | app.py:93-102 | The tag is always one of linux64, mac-arm64, mac-x64, win64, win32. PlatformTagCases states which one each system and machine gives. |
| Browser.PlatformTagCases | app.py:93-102 | The tag ignores the case of the host names. It names a Windows build iff the system is Windows and a mac build iff it is Darwin. |
| Pipeline.ProcessYears | app.py:790-859 | One result per requested year with scraped rows, in request order. Each holds the sheet computed from that year's rows and the prior upload's rows of that year. The summary is missing iff some month has rows but no TOTAL row; otherwise it holds the month lines and the year total, which is the sheet's corner. |
| Pipeline.PriorRows | app.py:798-801 | No prior rows iff there is no upload, the upload is empty, or it has no row of that year. Otherwise they are the upload's year slice: each row of that year as often as the upload has it, in upload order. |
| Pipeline.YearsWithDataKept | app.py:790-796 | A year is processed iff it was requested and has rows. Ascending requested years stay ascending. |

## Left out

- Scraping: the Selenium session, login, the date picker, HTML parsing and `collect_all_data_for_year`. Scraped rows are a parameter, as are the outcomes of the four browser builders.
- Chrome for Testing download, unpacking, quarantine removal and the cache: file system and network I/O.
- Email sending (Outlook and SMTP), JSON and workbook bytes, temporary files and the Streamlit UI.
- Workbook formatting: title rows, headers, column widths and fonts. Only the body cells, their values and their three styles are modelled.
- Pandas NaN handling: cells are natural numbers, a missing day column counts as 0, and a label is a string (NaN labels never match).
- Day columns: rows carry days 1..31 only. The summary's "any column whose name is digits" therefore covers the same days.
- Digits and case mapping: only ASCII digits and ASCII letters. Python's `isdigit`, `upper` and `lower` also accept other Unicode characters.
- Browser.BuildDriver: the builders' side effects (options, binary discovery, page-load timeouts) and log lines are not modelled. Each builder's outcome is a fixed function of the builder.
- Pipeline.ProcessYears: besides the summary failure of app.py:830, which is modelled, other exceptions raised while processing one year (scraping, file writes) are not modelled. Nor are the progress bar and the sorting of the yearly summary table.

## Findings

| source | as written | input that shows it | evidently intended | confidence | as-written member | corrected member |
|---|---|---|---|---|---|---|
| app.py:829-830 | For a month with rows but no TOTAL row, `pd.to_numeric(sub[days], errors="coerce")` receives a whole table. `to_numeric` accepts only scalars and one-dimensional input, so it raises TypeError. The year then gets no summary line (app.py:857-859). | A month whose only row is labelled "Bus" with 4 moves on day 1 | Sum all day cells of the month's rows (the `.sum().sum()` that follows), which equals the month's `Monthly Totals` cell | high, not executed | Summary.CountMoves, Summary.NoTotalRowRaises | Summary.MonthMoves, Summary.SummaryMatchesSheet |

=== FILE: aggregate.dfy ===
/** The first half of `generate_daily_totals_excel`: for every month 1..12, a
    31-entry day-to-total map taken from the month's first TOTAL row, or
    summed over the month's rows when there is none; a 31-entry ADA map taken
    from the month's first Wheelchair row, or all zeros; and the same totals
    for the optional prior-year upload. */
module Aggregate {
  import opened Wrappers
  import opened Text
  import opened Grid

  /** One row of a scraped (or uploaded) report table: the `Year` and `Month`
      it was stamped with, its `Vehicle Types` label, and its day columns
      "1".."31" as a day-to-count map (a missing column counts as 0). */
  datatype Row = Row(year: int, month: int, vehicleType: string, cells: map<int, nat>)

  /** Day of month to count. */
  type DayMap = map<int, nat>

  /** Month (1..12) to its day map. */
  type MonthMap = map<int, DayMap>

  const DaysPerGrid: nat := 31
  const MonthsPerYear: nat := 12

  /** A day map with exactly the keys 1..31. */
  ghost predicate IsDayMap(dm: DayMap) {
    forall d :: d in dm <==> 1 <= d <= DaysPerGrid
  }

  /** A month map with exactly the keys 1..12, each holding a day map. */
  ghost predicate IsYearMap(t: MonthMap) {
    && (forall m :: m in t <==> 1 <= m <= MonthsPerYear)
    && (forall m :: m in t ==> IsDayMap(t[m]))
  }

  /** `dm.get(d, 0)`. */
  function Get(dm: DayMap, d: int): nat {
    if d in dm then dm[d] else 0
  }

  /** `t.get(m, {}).get(d, 0)`. */
  function At(t: MonthMap, m: int, d: int): nat {
    if m in t then Get(t[m], d) else 0
  }

  /** The values of days 1..31 of a day map, in day order. */
  function DaysOf(dm: DayMap): (s: seq<nat>)
    ensures |s| == DaysPerGrid && forall i :: 0 <= i < DaysPerGrid ==> s[i] == Get(dm, i + 1)
  {
    seq(DaysPerGrid, i requires 0 <= i < DaysPerGrid => Get(dm, i + 1))
  }

  /** The value of row `r` in day column `d`, 0 when the column is absent. */
  function Cell(r: Row, d: int): nat {
    Get(r.cells, d)
  }

  /** The two designated rows: the one whose upper-cased label contains
      "TOTAL" and the one whose label contains "Wheelchair" ignoring case. */
  datatype Designation = TotalRow | WheelchairRow

  predicate Designates(kind: Designation, vehicleType: string) {
    match kind
    case TotalRow => Contains(Upper(vehicleType), "TOTAL")
    case WheelchairRow => Contains(Lower(vehicleType), "wheelchair")
  }

  /** Whether a label designates a row does not depend on the label's case. */
  lemma DesignationIgnoresCase(kind: Designation, vehicleType: string)
    ensures Designates(kind, Upper(vehicleType)) == Designates(kind, vehicleType)
    ensures Designates(kind, Lower(vehicleType)) == Designates(kind, vehicleType)
  {
    CaseFolds(vehicleType);
  }

  /** `df[df['Month'] == m]`, in row order. */
  function RowsOfMonth(rows: seq<Row>, m: int): (r: seq<Row>)
    ensures forall x :: x in r <==> x in rows && x.month == m
  {
    if rows == [] then []
    else if rows[0].month == m then [rows[0]] + RowsOfMonth(rows[1..], m)
    else RowsOfMonth(rows[1..], m)
  }

  /** The month's slice keeps each row of that month as often as the table
      has it. */
  lemma {:induction false} RowsOfMonthCounts(rows: seq<Row>, m: int)
    ensures forall x :: multiset(RowsOfMonth(rows, m))[x] == if x.month == m then multiset(rows)[x] else 0
  {
    if rows != [] {
      assert rows == [rows[0]] + rows[1..];
      RowsOfMonthCounts(rows[1..], m);
    }
  }

  /** `sub[sub['Vehicle Types'] matches kind].iloc[0]`, if any. */
  function FirstDesignated(rows: seq<Row>, kind: Designation): Option<Row> {
    if rows == [] then None
    else if Designates(kind, rows[0].vehicleType) then Some(rows[0])
    else FirstDesignated(rows[1..], kind)
  }

  /** `iloc[0]` of the designated rows: the row picked is designated and
      every row before it is not; nothing is picked exactly when no row is
      designated. */
  lemma {:induction false} FirstDesignatedIsFirst(rows: seq<Row>, kind: Designation)
    ensures FirstDesignated(rows, kind).None? <==> forall j :: 0 <= j < |rows| ==> !Designates(kind, rows[j].vehicleType)
    ensures FirstDesignated(rows, kind).Some? ==>
              exists i :: 0 <= i < |rows| && rows[i] == FirstDesignated(rows, kind).value
                          && Designates(kind, rows[i].vehicleType)
                          && forall j :: 0 <= j < i ==> !Designates(kind, rows[j].vehicleType)
  {
    if rows != [] && !Designates(kind, rows[0].vehicleType) {
      var rest := rows[1..];
      FirstDesignatedIsFirst(rest, kind);
      assert forall j :: 0 < j < |rows| ==> rows[j] == rest[j - 1];
      if FirstDesignated(rest, kind).Some? {
        var i :| 0 <= i < |rest| && rest[i] == FirstDesignated(rest, kind).value
                 && Designates(kind, rest[i].vehicleType)
                 && forall j :: 0 <= j < i ==> !Designates(kind, rest[j].vehicleType);
        assert rows[i + 1] == rest[i];
      }
    }
  }

  /** `sub[str(d)].sum()`: the rows' values in column `d`. */
  function ColumnSum(rows: seq<Row>, d: int): nat {
    if rows == [] then 0 else Cell(rows[0], d) + ColumnSum(rows[1..], d)
  }

  /** `{d: int(row.get(str(d), 0) or 0) for d in range(1, 32)}`. */
  function DayValues(r: Row): (dm: DayMap)
    ensures IsDayMap(dm)
  {
    map d | 1 <= d <= DaysPerGrid :: Cell(r, d)
  }

  /** `{d: 0 for d in range(1, 32)}`: the day values of a row without day
      columns. */
  function Zeros(): (dm: DayMap)
    ensures IsDayMap(dm)
    ensures forall d :: d in dm ==> dm[d] == 0
  {
    DayValues(Row(0, 0, "", map[]))
  }

  /** `monthly_totals[m]`: the first TOTAL row of month `m` if there is one,
      otherwise the column sums over the month's rows. */
  function MonthTotals(rows: seq<Row>, m: int): (dm: DayMap)
    ensures IsDayMap(dm)
  {
    var sub := RowsOfMonth(rows, m);
    match FirstDesignated(sub, TotalRow)
    case Some(tot) => DayValues(tot)
    case None => map d | 1 <= d <= DaysPerGrid :: ColumnSum(sub, d)
  }

  /** `monthly_ada_new[m]`: the first Wheelchair row of month `m`, or zeros. */
  function MonthAda(rows: seq<Row>, m: int): (dm: DayMap)
    ensures IsDayMap(dm)
  {
    match FirstDesignated(RowsOfMonth(rows, m), WheelchairRow)
    case Some(wc) => DayValues(wc)
    case None => Zeros()
  }

  /** `monthly_totals` after the loop has handled months 1..n. */
  function TotalsThrough(rows: seq<Row>, n: nat): MonthMap {
    if n == 0 then map[] else TotalsThrough(rows, n - 1)[n := MonthTotals(rows, n)]
  }

  /** `monthly_ada_new` after the loop has handled months 1..n. */
  function AdaThrough(rows: seq<Row>, n: nat): MonthMap {
    if n == 0 then map[] else AdaThrough(rows, n - 1)[n := MonthAda(rows, n)]
  }

  /** The totals of all twelve months. */
  function YearTotals(rows: seq<Row>): MonthMap {
    TotalsThrough(rows, MonthsPerYear)
  }

  /** The ADA maps of all twelve months. */
  function YearAda(rows: seq<Row>): MonthMap {
    AdaThrough(rows, MonthsPerYear)
  }

  lemma {:induction false} TotalsThroughHas(rows: seq<Row>, n: nat)
    ensures forall m :: m in TotalsThrough(rows, n) <==> 1 <= m <= n
    ensures forall m :: 1 <= m <= n ==> TotalsThrough(rows, n)[m] == MonthTotals(rows, m)
  {
    if n > 0 {
      TotalsThroughHas(rows, n - 1);
    }
  }

  lemma {:induction false} AdaThroughHas(rows: seq<Row>, n: nat)
    ensures forall m :: m in AdaThrough(rows, n) <==> 1 <= m <= n
    ensures forall m :: 1 <= m <= n ==> AdaThrough(rows, n)[m] == MonthAda(rows, m)
  {
    if n > 0 {
      AdaThroughHas(rows, n - 1);
    }
  }

  /** The year tables have exactly the months 1..12, each mapped to that
      month's totals (ADA counts), which have exactly the days 1..31. */
  lemma YearTables(rows: seq<Row>)
    ensures IsYearMap(YearTotals(rows)) && IsYearMap(YearAda(rows))
    ensures forall m :: 1 <= m <= MonthsPerYear ==> YearTotals(rows)[m] == MonthTotals(rows, m)
    ensures forall m :: 1 <= m <= MonthsPerYear ==> YearAda(rows)[m] == MonthAda(rows, m)
  {
    TotalsThroughHas(rows, MonthsPerYear);
    AdaThroughHas(rows, MonthsPerYear);
  }

  /** `uploaded_past_df[uploaded_past_df["Year"] == yr]`, or None when that
      slice is empty. */
  function PriorForYear(upload: seq<Row>, yr: int): (r: Option<seq<Row>>)
    ensures r.None? <==> forall x :: x in upload ==> x.year != yr
    ensures r.Some? ==> r.value == RowsOfYear(upload, yr)
  {
    var slice := RowsOfYear(upload, yr);
    assert slice != [] ==> slice[0] in slice;
    if slice == [] then None else Some(slice)
  }

  /** `df[df['Year'] == yr]`, in row order. */
  function RowsOfYear(rows: seq<Row>, yr: int): (r: seq<Row>)
    ensures forall x :: x in r <==> x in rows && x.year == yr
    ensures forall x :: multiset(r)[x] == if x.year == yr then multiset(rows)[x] else 0
  {
    if rows == [] then []
    else
      assert rows == [rows[0]] + rows[1..];
      if rows[0].year == yr then [rows[0]] + RowsOfYear(rows[1..], yr)
      else RowsOfYear(rows[1..], yr)
  }

  /** The year slice keeps the order of the table: slicing two tables one
      after the other is slicing each and joining the slices. */
  lemma {:induction false} RowsOfYearAppend(a: seq<Row>, b: seq<Row>, yr: int)
    ensures RowsOfYear(a + b, yr) == RowsOfYear(a, yr) + RowsOfYear(b, yr)
  {
    if a == [] {
      assert a + b == b;
    } else {
      assert (a + b)[0] == a[0];
      assert (a + b)[1..] == a[1..] + b;
      RowsOfYearAppend(a[1..], b, yr);
    }
  }

  /** Row `i` is the first row of year `yr` and month `m` designated `kind`. */
  predicate FirstOfYearMonth(rows: seq<Row>, yr: int, m: int, kind: Designation, i: int) {
    && 0 <= i < |rows| && rows[i].year == yr && rows[i].month == m && Designates(kind, rows[i].vehicleType)
    && forall j :: 0 <= j < i && rows[j].year == yr && rows[j].month == m ==> !Designates(kind, rows[j].vehicleType)
  }

  /** The rows of year `yr` and month `m`, in table order, taken in one pass. */
  function RowsOfYearMonth(rows: seq<Row>, yr: int, m: int): seq<Row> {
    if rows == [] then []
    else if rows[0].year == yr && rows[0].month == m then [rows[0]] + RowsOfYearMonth(rows[1..], yr, m)
    else RowsOfYearMonth(rows[1..], yr, m)
  }

  /** Slicing by year and then by month is slicing by both in one pass. */
  lemma {:induction false} YearMonthSlice(rows: seq<Row>, yr: int, m: int)
    ensures RowsOfMonth(RowsOfYear(rows, yr), m) == RowsOfYearMonth(rows, yr, m)
  {
    if rows != [] {
      YearMonthSlice(rows[1..], yr, m);
      var rest := RowsOfYear(rows[1..], yr);
      if rows[0].year == yr {
        var ys := [rows[0]] + rest;
        assert RowsOfYear(rows, yr) == ys;
        assert ys[0] == rows[0] && ys[1..] == rest;
      }
    }
  }

  lemma FirstOfYearMonthTail(rows: seq<Row>, yr: int, m: int, kind: Designation, i: int)
    requires FirstOfYearMonth(rows, yr, m, kind, i) && i > 0
    ensures FirstOfYearMonth(rows[1..], yr, m, kind, i - 1)
  {
    forall j | 0 <= j < i - 1 && rows[1..][j].year == yr && rows[1..][j].month == m
      ensures !Designates(kind, rows[1..][j].vehicleType)
    {
      assert rows[1..][j] == rows[j + 1];
    }
  }

  lemma {:induction false} FirstDesignatedOfBoth(rows: seq<Row>, yr: int, m: int, kind: Designation, i: int)
    requires FirstOfYearMonth(rows, yr, m, kind, i)
    ensures FirstDesignated(RowsOfYearMonth(rows, yr, m), kind) == Some(rows[i])
  {
    if i > 0 {
      FirstOfYearMonthTail(rows, yr, m, kind, i);
      FirstDesignatedOfBoth(rows[1..], yr, m, kind, i - 1);
    }
  }

  lemma FirstDesignatedOfYearMonth(rows: seq<Row>, yr: int, m: int, kind: Designation, i: int)
    requires FirstOfYearMonth(rows, yr, m, kind, i)
    ensures FirstDesignated(RowsOfMonth(RowsOfYear(rows, yr), m), kind) == Some(rows[i])
  {
    YearMonthSlice(rows, yr, m);
    FirstDesignatedOfBoth(rows, yr, m, kind, i);
  }

  /** In the prior totals of year `yr`, month `m` is supplied by the first
      TOTAL row of that year and month in upload order. */
  lemma PriorTotalRowSupplies(upload: seq<Row>, yr: int, m: int, i: int, d: int)
    requires FirstOfYearMonth(upload, yr, m, TotalRow, i)
    requires 1 <= d <= DaysPerGrid
    ensures MonthTotals(RowsOfYear(upload, yr), m)[d] == Cell(upload[i], d)
  {
    FirstDesignatedOfYearMonth(upload, yr, m, TotalRow, i);
  }

  /** Column `d` summed over the rows of year `yr` and month `m`, read
      straight off the whole upload. */
  function YearMonthColumn(rows: seq<Row>, yr: int, m: int, d: int): nat {
    if rows == [] then 0
    else (if rows[0].year == yr && rows[0].month == m then Cell(rows[0], d) else 0)
         + YearMonthColumn(rows[1..], yr, m, d)
  }

  lemma {:induction false} MonthColumnOfYear(rows: seq<Row>, yr: int, m: int, d: int)
    ensures MonthColumn(RowsOfYear(rows, yr), m, d) == YearMonthColumn(rows, yr, m, d)
  {
    if rows != [] {
      MonthColumnOfYear(rows[1..], yr, m, d);
      if rows[0].year == yr {
        var ys := [rows[0]] + RowsOfYear(rows[1..], yr);
        assert ys[0] == rows[0] && ys[1..] == RowsOfYear(rows[1..], yr);
      }
    }
  }

  /** In the prior totals of year `yr`, a month without a TOTAL row of that
      year takes each day's total as the column summed over the upload's rows
      of that year and month. */
  lemma PriorSummedWithoutTotalRow(upload: seq<Row>, yr: int, m: int, d: int)
    requires forall x :: x in upload && x.year == yr && x.month == m ==> !Designates(TotalRow, x.vehicleType)
    requires 1 <= d <= DaysPerGrid
    ensures MonthTotals(RowsOfYear(upload, yr), m)[d] == YearMonthColumn(upload, yr, m, d)
  {
    var slice := RowsOfYear(upload, yr);
    forall j | 0 <= j < |slice| && slice[j].month == m
      ensures !Designates(TotalRow, slice[j].vehicleType)
    {
      assert slice[j] in slice;
    }
    SummedWithoutTotalRow(slice, m, d);
    MonthColumnOfYear(upload, yr, m, d);
  }

  /** The three `for m in range(1, 13)` loops of `generate_daily_totals_excel`:
      new totals and ADA maps for every month, and prior totals when prior rows
      were supplied and are not empty. */
  method MonthlyTables(newRows: seq<Row>, oldRows: Option<seq<Row>>)
    returns (totalsNew: MonthMap, adaNew: MonthMap, totalsOld: Option<MonthMap>)
    ensures totalsNew == YearTotals(newRows) && adaNew == YearAda(newRows)
    ensures totalsOld.Some? <==> oldRows.Some? && oldRows.value != []
    ensures totalsOld.Some? ==> totalsOld.value == YearTotals(oldRows.value)
  {
    totalsNew, adaNew := map[], map[];
    for m := 1 to MonthsPerYear + 1
      invariant totalsNew == TotalsThrough(newRows, m - 1)
      invariant adaNew == AdaThrough(newRows, m - 1)
    {
      totalsNew := totalsNew[m := MonthTotals(newRows, m)];
      adaNew := adaNew[m := MonthAda(newRows, m)];
    }
    if oldRows.Some? && oldRows.value != [] {
      var prior: MonthMap := map[];
      for m := 1 to MonthsPerYear + 1
        invariant prior == TotalsThrough(oldRows.value, m - 1)
      {
        prior := prior[m := MonthTotals(oldRows.value, m)];
      }
      totalsOld := Some(prior);
    } else {
      totalsOld := None;
    }
  }

  // ----- what the month maps mean, in terms of the rows -------------------

  /** Column `d` summed over the rows of month `m`, read straight off the
      whole table. */
  function MonthColumn(rows: seq<Row>, m: int, d: int): nat {
    if rows == [] then 0
    else (if rows[0].month == m then Cell(rows[0], d) else 0) + MonthColumn(rows[1..], m, d)
  }

  /** Row `i` is the first row of month `m` designated `kind`. */
  predicate FirstOfMonth(rows: seq<Row>, m: int, kind: Designation, i: int) {
    && 0 <= i < |rows| && rows[i].month == m && Designates(kind, rows[i].vehicleType)
    && forall j :: 0 <= j < i && rows[j].month == m ==> !Designates(kind, rows[j].vehicleType)
  }

  lemma {:induction false} FirstDesignatedOfMonth(rows: seq<Row>, m: int, kind: Designation, i: int)
    requires FirstOfMonth(rows, m, kind, i)
    ensures FirstDesignated(RowsOfMonth(rows, m), kind) == Some(rows[i])
  {
    if i > 0 {
      assert FirstOfMonth(rows[1..], m, kind, i - 1) by {
        forall j | 0 <= j < i - 1 && rows[1..][j].month == m
          ensures !Designates(kind, rows[1..][j].vehicleType)
        {
          assert rows[1..][j] == rows[j + 1];
        }
      }
      FirstDesignatedOfMonth(rows[1..], m, kind, i - 1);
    }
  }

  lemma {:induction false} NoneDesignatedOfMonth(rows: seq<Row>, m: int, kind: Designation)
    requires forall j :: 0 <= j < |rows| && rows[j].month == m ==> !Designates(kind, rows[j].vehicleType)
    ensures FirstDesignated(RowsOfMonth(rows, m), kind) == None
  {
    if rows != [] {
      assert forall j :: 0 <= j < |rows| - 1 ==> rows[1..][j] == rows[j + 1];
      NoneDesignatedOfMonth(rows[1..], m, kind);
    }
  }

  lemma {:induction false} ColumnSumOfMonth(rows: seq<Row>, m: int, d: int)
    ensures ColumnSum(RowsOfMonth(rows, m), d) == MonthColumn(rows, m, d)
  {
    if rows != [] {
      ColumnSumOfMonth(rows[1..], m, d);
    }
  }

  /** When month `m` has a TOTAL row, the first one supplies every day's
      total, and a day column it lacks gives 0. */
  lemma TotalRowSupplies(rows: seq<Row>, m: int, i: int, d: int)
    requires FirstOfMonth(rows, m, TotalRow, i)
    requires 1 <= d <= DaysPerGrid
    ensures MonthTotals(rows, m)[d] == Cell(rows[i], d)
    ensures d !in rows[i].cells ==> MonthTotals(rows, m)[d] == 0
  {
    FirstDesignatedOfMonth(rows, m, TotalRow, i);
  }

  /** Without a TOTAL row, day `d`'s total is column `d` summed over the
      month's rows. */
  lemma SummedWithoutTotalRow(rows: seq<Row>, m: int, d: int)
    requires forall j :: 0 <= j < |rows| && rows[j].month == m ==> !Designates(TotalRow, rows[j].vehicleType)
    requires 1 <= d <= DaysPerGrid
    ensures MonthTotals(rows, m)[d] == MonthColumn(rows, m, d)
  {
    NoneDesignatedOfMonth(rows, m, TotalRow);
    ColumnSumOfMonth(rows, m, d);
  }

  /** A month with no rows totals zero on every day and has no ADA days. */
  lemma {:induction false} EmptyMonthIsZero(rows: seq<Row>, m: int, d: int)
    requires forall j :: 0 <= j < |rows| ==> rows[j].month != m
    requires 1 <= d <= DaysPerGrid
    ensures MonthTotals(rows, m)[d] == 0 && MonthAda(rows, m)[d] == 0
  {
    NoRowsOfMonth(rows, m);
  }

  lemma {:induction false} NoRowsOfMonth(rows: seq<Row>, m: int)
    requires forall j :: 0 <= j < |rows| ==> rows[j].month != m
    ensures RowsOfMonth(rows, m) == []
  {
    if rows != [] {
      assert forall j :: 0 <= j < |rows| - 1 ==> rows[1..][j] == rows[j + 1];
      NoRowsOfMonth(rows[1..], m);
    }
  }

  /** The first Wheelchair row of the month supplies the ADA counts. */
  lemma AdaFromWheelchairRow(rows: seq<Row>, m: int, i: int, d: int)
    requires FirstOfMonth(rows, m, WheelchairRow, i)
    requires 1 <= d <= DaysPerGrid
    ensures MonthAda(rows, m)[d] == Cell(rows[i], d)
  {
    FirstDesignatedOfMonth(rows, m, WheelchairRow, i);
  }

  /** Without a Wheelchair row, every ADA count of the month is 0. */
  lemma AdaZeroWithoutWheelchairRow(rows: seq<Row>, m: int, d: int)
    requires forall j :: 0 <= j < |rows| && rows[j].month == m ==> !Designates(WheelchairRow, rows[j].vehicleType)
    requires 1 <= d <= DaysPerGrid
    ensures MonthAda(rows, m)[d] == 0
  {
    NoneDesignatedOfMonth(rows, m, WheelchairRow);
  }
}

=== FILE: browser.dfy ===
/** Choosing a browser: the order `build_driver` tries its four builders in,
    the loop that keeps the first one that starts, and the Chrome for Testing
    platform name `_platform_tag` derives from the host. */
module Browser {
  import opened Wrappers
  import opened Text

  /** `try_chrome_system`, `try_chrome_cft`, `try_firefox`, `try_edge`. */
  datatype Builder = ChromeSystem | ChromeForTesting | Firefox | Edge

  /** The order for "auto" (and for any value not named below). */
  const DefaultOrder: seq<Builder> := [ChromeSystem, ChromeForTesting, Firefox, Edge]

  /** The builder a preference puts first. */
  function FirstChoice(preferred: string): Builder {
    if preferred == "firefox" then Firefox
    else if preferred == "edge" then Edge
    else ChromeSystem
  }

  /** `attempts` as chosen from `preferred`. */
  function AttemptOrder(preferred: string): (r: seq<Builder>)
    ensures |r| == |DefaultOrder| && r[0] == FirstChoice(preferred)
  {
    if preferred == "chrome" then [ChromeSystem, ChromeForTesting, Firefox, Edge]
    else if preferred == "firefox" then [Firefox, ChromeSystem, ChromeForTesting, Edge]
    else if preferred == "edge" then [Edge, ChromeSystem, ChromeForTesting, Firefox]
    else [ChromeSystem, ChromeForTesting, Firefox, Edge]
  }

  /** `s` without the occurrences of `b`, order kept. */
  function Without(s: seq<Builder>, b: Builder): seq<Builder> {
    if s == [] then [] else (if s[0] == b then [] else [s[0]]) + Without(s[1..], b)
  }

  predicate Distinct(s: seq<Builder>) {
    forall i, j :: 0 <= i < j < |s| ==> s[i] != s[j]
  }

  /** Every preference tries each of the four builders exactly once: the
      preferred one first, then the others in the default order. */
  lemma AttemptOrderShape(preferred: string)
    ensures AttemptOrder(preferred) == [FirstChoice(preferred)] + Without(DefaultOrder, FirstChoice(preferred))
    ensures Distinct(AttemptOrder(preferred)) && forall b: Builder :: b in AttemptOrder(preferred)
  {
    var p := FirstChoice(preferred);
    var tail := Without(DefaultOrder[3..], p);
    assert DefaultOrder[3..][1..] == [];
    var tail2 := (if DefaultOrder[2] == p then [] else [DefaultOrder[2]]) + tail;
    assert DefaultOrder[2..][1..] == DefaultOrder[3..];
    assert Without(DefaultOrder[2..], p) == tail2;
    var tail1 := (if DefaultOrder[1] == p then [] else [DefaultOrder[1]]) + tail2;
    assert DefaultOrder[1..][1..] == DefaultOrder[2..];
    assert Without(DefaultOrder[1..], p) == tail1;
    assert Without(DefaultOrder, p) == (if DefaultOrder[0] == p then [] else [DefaultOrder[0]]) + tail1;
    var o := AttemptOrder(preferred);
    assert |o| == 4;
    forall b: Builder ensures b in o {
      assert b == o[0] || b == o[1] || b == o[2] || b == o[3];
    }
  }

  /** `build_driver(preferred)` with the outcome of each builder in the
      current environment given as `launch`: builders are tried in order
      until one starts; `tried` lists the builders attempted (the "Trying
      browser" log lines). The result is the first builder's driver that
      starts, or the last builder's error when none does. */
  method BuildDriver<D, E>(preferred: string, launch: Builder -> Result<D, E>)
    returns (r: Result<D, E>, tried: seq<Builder>)
    ensures 1 <= |tried| <= |AttemptOrder(preferred)| && tried == AttemptOrder(preferred)[..|tried|]
    ensures forall k :: 0 <= k < |tried| - 1 ==> launch(tried[k]).Failure?
    ensures r == launch(tried[|tried| - 1])
    ensures r.Failure? ==> tried == AttemptOrder(preferred)
    ensures r.Failure? <==> forall b :: launch(b).Failure?
  {
    var attempts := AttemptOrder(preferred);
    AttemptOrderShape(preferred);
    r, tried := TryInOrder(attempts, launch);
    if r.Failure? {
      forall b ensures launch(b).Failure? {
        assert b in attempts;
        var k :| 0 <= k < |attempts| && attempts[k] == b;
      }
    }
  }

  /** The `for fn in attempts` loop. */
  method TryInOrder<D, E>(attempts: seq<Builder>, launch: Builder -> Result<D, E>)
    returns (r: Result<D, E>, tried: seq<Builder>)
    requires attempts != []
    ensures 1 <= |tried| <= |attempts| && tried == attempts[..|tried|]
    ensures forall k :: 0 <= k < |tried| - 1 ==> launch(tried[k]).Failure?
    ensures r == launch(tried[|tried| - 1])
    ensures r.Failure? ==> tried == attempts
  {
    tried := [];
    var lastErr: Option<E> := None;
    for i := 0 to |attempts|
      invariant tried == attempts[..i]
      invariant forall k :: 0 <= k < i ==> launch(attempts[k]).Failure?
      invariant i > 0 ==> lastErr == Some(launch(attempts[i - 1]).error)
    {
      tried := tried + [attempts[i]];
      var res := launch(attempts[i]);
      if res.Success? {
        return res, tried;
      }
      lastErr := Some(res.error);
    }
    assert tried == attempts;
    r := Failure(lastErr.value);
  }

  // ----- Chrome for Testing platform ---------------------------------------

  /** The platform names Chrome for Testing publishes builds for, as far as
      the installer asks for them. */
  const Platforms: set<string> := {"linux64", "mac-arm64", "mac-x64", "win64", "win32"}

  /** `_platform_tag()` with `platform.system()`, `platform.machine()` and
      the `PROGRAMFILES(X86)` variable (empty when unset) as parameters. */
  function PlatformTag(system: string, machine: string, programFilesX86: string): (tag: string)
    ensures tag in Platforms
  {
    var sysname := Lower(system);
    var mach := Lower(machine);
    if sysname == "linux" then "linux64"
    else if sysname == "darwin" then
      (if Contains(mach, "arm") || Contains(mach, "aarch") then "mac-arm64" else "mac-x64")
    else if sysname == "windows" then
      (if Contains(mach, "64") || programFilesX86 != "" then "win64" else "win32")
    else "linux64"
  }

  /** The tag ignores the case of the host's names, and names a Windows or
      mac build exactly on a Windows or mac host. */
  lemma PlatformTagCases(system: string, machine: string, programFilesX86: string)
    ensures PlatformTag(system, machine, programFilesX86) == PlatformTag(Lower(system), Lower(machine), programFilesX86)
    ensures PlatformTag(system, machine, programFilesX86) in {"win64", "win32"} <==> Lower(system) == "windows"
    ensures PlatformTag(system, machine, programFilesX86) in {"mac-arm64", "mac-x64"} <==> Lower(system) == "darwin"
  {
    assert Lower(Lower(system)) == Lower(system);
    assert Lower(Lower(machine)) == Lower(machine);
  }
}

=== FILE: calendar.dfy ===
/** The proleptic Gregorian calendar as Python's `datetime` sees it: which
    (year, month, day) triples are dates (`datetime(...)` raises on the
    others) and `weekday()`, computed from a day count rather than from
    floating point. */
module Calendar {

  const MinYear: int := 1
  const MaxYear: int := 9999

  predicate IsLeap(y: int) {
    y % 4 == 0 && (y % 100 != 0 || y % 400 == 0)
  }

  function DaysInYear(y: int): int {
    if IsLeap(y) then 366 else 365
  }

  function DaysInMonth(y: int, m: int): (n: int)
    requires 1 <= m <= 12
    ensures 28 <= n <= 31
  {
    if m == 2 then (if IsLeap(y) then 29 else 28)
    else if m == 4 || m == 6 || m == 9 || m == 11 then 30
    else 31
  }

  /** `datetime(y, m, d)` succeeds. */
  predicate IsValidDate(y: int, m: int, d: int) {
    MinYear <= y <= MaxYear && 1 <= m <= 12 && 1 <= d <= DaysInMonth(y, m)
  }

  /** Days in the years 1..y-1. */
  function DaysBeforeYear(y: int): int
    requires y >= 1
  {
    var p := y - 1;
    p * 365 + p / 4 - p / 100 + p / 400
  }

  /** Days in the months 1..m-1 of year y. */
  function DaysBeforeMonth(y: int, m: int): (n: int)
    requires 1 <= m <= 13
    ensures 0 <= n
  {
    if m == 1 then 0 else DaysBeforeMonth(y, m - 1) + DaysInMonth(y, m - 1)
  }

  /** `date(y, m, d).toordinal()`: 1 for January 1 of year 1. */
  function Ordinal(y: int, m: int, d: int): (o: int)
    requires IsValidDate(y, m, d)
    ensures DaysBeforeYear(y) < o <= DaysBeforeYear(y) + DaysInYear(y)
  {
    MonthsWithinYear(y, m + 1);
    MonthsFillYear(y);
    DaysBeforeYear(y) + DaysBeforeMonth(y, m) + d
  }

  /** The months before `m` never take more days than the whole year. */
  lemma {:induction false} MonthsWithinYear(y: int, m: int)
    requires 1 <= m <= 13
    ensures DaysBeforeMonth(y, m) <= DaysBeforeMonth(y, 13)
    decreases 13 - m
  {
    if m < 13 {
      MonthsWithinYear(y, m + 1);
    }
  }

  /** `datetime(y, m, d).weekday()`: Monday is 0, Saturday 5, Sunday 6. */
  function Weekday(y: int, m: int, d: int): (w: int)
    requires IsValidDate(y, m, d)
    ensures 0 <= w < 7
  {
    (Ordinal(y, m, d) + 6) % 7
  }

  /** The date after a valid date. */
  function NextDay(y: int, m: int, d: int): (int, int, int)
    requires IsValidDate(y, m, d)
  {
    if d < DaysInMonth(y, m) then (y, m, d + 1)
    else if m < 12 then (y, m + 1, 1)
    else (y + 1, 1, 1)
  }

  /** A year's day count steps by the length of that year. */
  lemma DaysBeforeNextYear(y: int)
    requires y >= 1
    ensures DaysBeforeYear(y + 1) == DaysBeforeYear(y) + DaysInYear(y)
  {
    var p := y - 1;
    assert (p + 1) / 4 == p / 4 + (if y % 4 == 0 then 1 else 0);
    assert (p + 1) / 100 == p / 100 + (if y % 100 == 0 then 1 else 0);
    assert (p + 1) / 400 == p / 400 + (if y % 400 == 0 then 1 else 0);
  }

  /** The twelve months fill the year. */
  lemma MonthsFillYear(y: int)
    ensures DaysBeforeMonth(y, 13) == DaysInYear(y)
  {
    var feb := DaysInMonth(y, 2);
    assert DaysBeforeMonth(y, 2) == 31;
    assert DaysBeforeMonth(y, 3) == 31 + feb;
    assert DaysBeforeMonth(y, 4) == 62 + feb;
    assert DaysBeforeMonth(y, 5) == 92 + feb;
    assert DaysBeforeMonth(y, 6) == 123 + feb;
    assert DaysBeforeMonth(y, 7) == 153 + feb;
    assert DaysBeforeMonth(y, 8) == 184 + feb;
    assert DaysBeforeMonth(y, 9) == 215 + feb;
    assert DaysBeforeMonth(y, 10) == 245 + feb;
    assert DaysBeforeMonth(y, 11) == 276 + feb;
    assert DaysBeforeMonth(y, 12) == 306 + feb;
  }

  /** The day count is a consecutive numbering of the dates: the next date
      gets the next number, across month and year boundaries. */
  lemma OrdinalOfNextDay(y: int, m: int, d: int)
    requires IsValidDate(y, m, d)
    requires IsValidDate(NextDay(y, m, d).0, NextDay(y, m, d).1, NextDay(y, m, d).2)
    ensures Ordinal(NextDay(y, m, d).0, NextDay(y, m, d).1, NextDay(y, m, d).2) == Ordinal(y, m, d) + 1
  {
    if d == DaysInMonth(y, m) && m == 12 {
      DaysBeforeNextYear(y);
      MonthsFillYear(y);
    }
  }

  /** Weekdays follow each other Monday through Sunday and round again. */
  lemma WeekdayOfNextDay(y: int, m: int, d: int)
    requires IsValidDate(y, m, d)
    requires IsValidDate(NextDay(y, m, d).0, NextDay(y, m, d).1, NextDay(y, m, d).2)
    ensures Weekday(NextDay(y, m, d).0, NextDay(y, m, d).1, NextDay(y, m, d).2) == (Weekday(y, m, d) + 1) % 7
  {
    OrdinalOfNextDay(y, m, d);
  }

  /** 1 January 2000 was a Saturday; with WeekdayOfNextDay this fixes the
      weekday of every date the parser can produce. */
  lemma FirstOf2000IsSaturday()
    ensures Weekday(2000, 1, 1) == 5
  {
  }
}

=== FILE: emails.dfy ===
/** The recipient-list validator (`validate_email_list` with `EMAIL_RE`):
    split at `;` or `,`, trim, drop empty pieces, and reject the whole input
    when any piece does not look like an address. */
module Emails {
  import opened Wrappers
  import opened Text

  /** One `[^@\s]+` run of the pattern: non-empty, no `@`, no whitespace. */
  predicate Atom(s: string) {
    s != [] && '@' !in s && forall k :: 0 <= k < |s| ==> !IsSpace(s[k])
  }

  /** `e` matches `^[^@\s]+@[^@\s]+\.[^@\s]+$` with the `@` at index `i` and
      the chosen `.` at index `j`. */
  predicate SplitsAt(e: string, i: int, j: int) {
    0 < i < j < |e| - 1 && e[i] == '@' && e[j] == '.'
    && Atom(e[..i]) && Atom(e[i + 1..j]) && Atom(e[j + 1..])
  }

  /** The pattern itself: some choice of `@` and `.` positions splits `e`
      into three atoms. */
  ghost predicate MatchesPattern(e: string) {
    exists i, j :: SplitsAt(e, i, j)
  }

  /** The check the validator runs: exactly one `@`, with text before it, no
      whitespace anywhere, and a `.` in the domain that has text on both
      sides. */
  predicate IsEmail(e: string)
    ensures IsEmail(e) ==> |e| >= 5
  {
    var at := FirstIndexIn(e, {'@'});
    && 0 < at < |e|
    && '@' !in e[at + 1..]
    && (forall k :: 0 <= k < |e| ==> !IsSpace(e[k]))
    && HasInnerDot(e[at + 1..])
  }

  /** A `.` that is neither the first nor the last character of `d`. */
  predicate HasInnerDot(d: string) {
    |d| >= 3 && '.' in d[1..|d| - 1]
  }

  /** The hand-coded check accepts exactly the strings the pattern matches. */
  lemma IsEmailMatchesPattern(e: string)
    ensures IsEmail(e) <==> MatchesPattern(e)
  {
    if IsEmail(e) {
      AcceptedMatches(e);
    }
    if MatchesPattern(e) {
      var i, j :| SplitsAt(e, i, j);
      MatchAccepted(e, i, j);
    }
  }

  lemma AcceptedMatches(e: string)
    requires IsEmail(e)
    ensures MatchesPattern(e)
  {
    var at := FirstIndexIn(e, {'@'});
    var d := e[at + 1..];
    var inner := d[1..|d| - 1];
    var p :| 0 <= p < |inner| && inner[p] == '.';
    var j := at + 2 + p;
    assert e[j] == '.';
    assert forall k :: 0 <= k < at ==> e[..at][k] == e[k];
    assert '@' !in e[..at];
    assert e[at + 1..j] == d[..p + 1];
    assert e[j + 1..] == d[p + 2..];
    assert '@' !in d[..p + 1] && '@' !in d[p + 2..];
    assert Atom(e[..at]) by {
      forall k | 0 <= k < at ensures !IsSpace(e[..at][k]) { assert e[..at][k] == e[k]; }
    }
    var host, tld := e[at + 1..j], e[j + 1..];
    assert Atom(host) by {
      forall k | 0 <= k < |host| ensures !IsSpace(host[k]) { assert host[k] == e[at + 1 + k]; }
    }
    assert Atom(tld) by {
      forall k | 0 <= k < |tld| ensures !IsSpace(tld[k]) { assert tld[k] == e[j + 1 + k]; }
    }
    assert SplitsAt(e, at, j);
  }

  lemma MatchAccepted(e: string, i: int, j: int)
    requires SplitsAt(e, i, j)
    ensures IsEmail(e)
  {
    assert forall k :: 0 <= k < i ==> e[..i][k] == e[k];
    assert FirstIndexIn(e, {'@'}) == i;
    var d := e[i + 1..];
    assert d == e[i + 1..j] + ['.'] + e[j + 1..];
    assert '@' !in d;
    forall k | 0 <= k < |e| ensures !IsSpace(e[k]) {
      if k < i {
        assert e[k] == e[..i][k];
      } else if i < k < j {
        assert e[k] == e[i + 1..j][k - i - 1];
      } else if j < k {
        assert e[k] == e[j + 1..][k - j - 1];
      }
    }
    assert d[1..|d| - 1][j - i - 2] == '.';
  }

  /** `[e for e in emails if not EMAIL_RE.match(e)]`. */
  function Rejected(emails: seq<string>): (r: seq<string>)
    ensures forall e :: e in r <==> e in emails && !IsEmail(e)
  {
    if emails == [] then []
    else if IsEmail(emails[0]) then Rejected(emails[1..])
    else [emails[0]] + Rejected(emails[1..])
  }

  /** Each offender is listed as often as the input holds it. */
  lemma {:induction false} RejectedCounts(emails: seq<string>)
    ensures forall e :: multiset(Rejected(emails))[e] == if IsEmail(e) then 0 else multiset(emails)[e]
  {
    if emails != [] {
      assert emails == [emails[0]] + emails[1..];
      RejectedCounts(emails[1..]);
    }
  }

  /** The offenders keep the order of the input: rejecting from two lists one
      after the other is rejecting from each and joining the results. */
  lemma {:induction false} RejectedAppend(a: seq<string>, b: seq<string>)
    ensures Rejected(a + b) == Rejected(a) + Rejected(b)
  {
    if a == [] {
      assert a + b == b;
    } else {
      assert (a + b)[0] == a[0];
      assert (a + b)[1..] == a[1..] + b;
      RejectedAppend(a[1..], b);
    }
  }

  /** `validate_email_list(raw)`: fails, listing every offending piece, iff
      some trimmed non-empty piece between `;`/`,` separators does not match
      the pattern; otherwise returns exactly those pieces in input order. */
  function ValidateEmails(raw: string): (r: Result<seq<string>, seq<string>>)
    ensures r.Success? <==> forall i :: 0 <= i < |Pieces(raw, {';', ','})| ==> MatchesPattern(Pieces(raw, {';', ','})[i])
    ensures r.Success? ==> r.value == Pieces(raw, {';', ','})
    ensures r.Failure? ==> r.error != []
    ensures r.Failure? ==> forall e :: e in r.error <==> e in Pieces(raw, {';', ','}) && !MatchesPattern(e)
    ensures r.Failure? ==> r.error == Rejected(Pieces(raw, {';', ','}))
  {
    var emails := Pieces(raw, {';', ','});
    var bad := Rejected(emails);
    forall e ensures IsEmail(e) <==> MatchesPattern(e) {
      IsEmailMatchesPattern(e);
    }
    if bad != [] then
      assert bad[0] in bad;
      var i :| 0 <= i < |emails| && emails[i] == bad[0];
      Failure(bad)
    else
      assert forall i :: 0 <= i < |emails| ==> emails[i] in emails;
      Success(emails)
  }
}

=== FILE: grid.dfy ===
/** Sums over rows and columns of a rectangular table of counts: the
    arithmetic behind the `Monthly Totals` row and the `Total` column of the
    daily-totals sheet. */
module Grid {

  /** `sum(s)`. */
  function Sum(s: seq<nat>): nat {
    if s == [] then 0 else Sum(s[..|s| - 1]) + s[|s| - 1]
  }

  lemma SumSnoc(s: seq<nat>, x: nat)
    ensures Sum(s + [x]) == Sum(s) + x
  {
    assert (s + [x])[..|s|] == s;
  }

  lemma {:induction false} SumCons(x: nat, s: seq<nat>)
    ensures Sum([x] + s) == x + Sum(s)
  {
    if s != [] {
      var n := |s| - 1;
      assert ([x] + s)[..n + 1] == [x] + s[..n];
      SumCons(x, s[..n]);
    }
  }

  /** Pointwise sum of two rows of equal width. */
  function Add(a: seq<nat>, b: seq<nat>): (r: seq<nat>)
    requires |a| == |b|
    ensures |r| == |a| && forall k :: 0 <= k < |r| ==> r[k] == a[k] + b[k]
  {
    seq(|a|, k requires 0 <= k < |a| => a[k] + b[k])
  }

  /** Summing two rows pointwise and then adding up the result is adding up
      each row and then the two sums. */
  lemma {:induction false} SumAdd(a: seq<nat>, b: seq<nat>)
    requires |a| == |b|
    ensures Sum(Add(a, b)) == Sum(a) + Sum(b)
  {
    if a != [] {
      var n := |a| - 1;
      assert Add(a, b)[..n] == Add(a[..n], b[..n]);
      SumAdd(a[..n], b[..n]);
    }
  }

  lemma {:induction false} SumZeros(s: seq<nat>)
    requires forall k :: 0 <= k < |s| ==> s[k] == 0
    ensures Sum(s) == 0
  {
    if s != [] {
      SumZeros(s[..|s| - 1]);
    }
  }

  /** Every row of `rows` has `w` entries. */
  predicate IsMatrix(rows: seq<seq<nat>>, w: nat) {
    forall i :: 0 <= i < |rows| ==> |rows[i]| == w
  }

  /** Column `k` of a table, top to bottom. */
  function Column(rows: seq<seq<nat>>, k: nat): (c: seq<nat>)
    requires forall i :: 0 <= i < |rows| ==> k < |rows[i]|
    ensures |c| == |rows| && forall i :: 0 <= i < |rows| ==> c[i] == rows[i][k]
  {
    seq(|rows|, i requires 0 <= i < |rows| && k < |rows[i]| => rows[i][k])
  }

  /** `df.sum()`: the total of each of the `w` columns. */
  function ColumnTotals(rows: seq<seq<nat>>, w: nat): (r: seq<nat>)
    requires IsMatrix(rows, w)
    ensures |r| == w && forall k :: 0 <= k < w ==> r[k] == Sum(Column(rows, k))
  {
    seq(w, k requires 0 <= k < w => Sum(Column(rows, k)))
  }

  /** `df.sum(axis=1)`: the total of each row. */
  function RowTotals(rows: seq<seq<nat>>): (r: seq<nat>)
    ensures |r| == |rows| && forall i :: 0 <= i < |rows| ==> r[i] == Sum(rows[i])
  {
    seq(|rows|, i requires 0 <= i < |rows| => Sum(rows[i]))
  }

  /** The grand total does not depend on the order of summation: adding up
      the column totals gives the same number as adding up the row totals. */
  lemma {:induction false} TotalsInterchange(rows: seq<seq<nat>>, w: nat)
    requires IsMatrix(rows, w)
    ensures Sum(ColumnTotals(rows, w)) == Sum(RowTotals(rows))
  {
    if rows == [] {
      SumZeros(ColumnTotals(rows, w));
    } else {
      var n := |rows| - 1;
      var init, last := rows[..n], rows[n];
      TotalsInterchange(init, w);
      forall k | 0 <= k < w
        ensures ColumnTotals(rows, w)[k] == ColumnTotals(init, w)[k] + last[k]
      {
        assert Column(rows, k) == Column(init, k) + [last[k]];
        SumSnoc(Column(init, k), last[k]);
      }
      assert ColumnTotals(rows, w) == Add(ColumnTotals(init, w), last);
      SumAdd(ColumnTotals(init, w), last);
      assert RowTotals(rows) == RowTotals(init) + [Sum(last)];
      SumSnoc(RowTotals(init), Sum(last));
    }
  }
}

=== FILE: pipeline.dfy ===
/** The per-year loop of a run: for each requested year, take the scraped
    rows (skipping a year with none), pick the prior upload's rows for that
    year, and produce the sheet and the month summary. */
module Pipeline {
  import opened Wrappers
  import opened Years
  import opened Aggregate
  import opened Report
  import opened Summary

  /** What one processed year yields: the sheet body (written and attached
      before the summary is built) and, unless the summary step raised, the
      month lines and the year's total moves (its `summary_rows` entry). */
  datatype YearResult = YearResult(year: int, sheet: seq<seq<SheetCell>>, summary: Option<YearSummary>)

  /** `old_df` for year `yr`: the upload's rows of that year, if an upload
      with rows was supplied and has rows of that year. */
  function PriorRows(upload: Option<seq<Row>>, yr: int): (r: Option<seq<Row>>)
    ensures r.None? <==> upload.None? || upload.value == [] || forall x :: x in upload.value ==> x.year != yr
    ensures r.Some? ==> r.value == RowsOfYear(upload.value, yr)
  {
    if upload.Some? && upload.value != [] then PriorForYear(upload.value, yr) else None
  }

  /** The requested years the scraper returned rows for, in request order. */
  function YearsWithData(years: seq<int>, scraped: int -> seq<Row>): seq<int> {
    if years == [] then []
    else
      var init := YearsWithData(years[..|years| - 1], scraped);
      if scraped(years[|years| - 1]) == [] then init else init + [years[|years| - 1]]
  }

  /** `res` is what processing its year produces from the scraped rows and
      the upload. */
  ghost predicate IsResultFor(res: YearResult, scraped: int -> seq<Row>, upload: Option<seq<Row>>) {
    var data := scraped(res.year);
    && |res.sheet| == GridRows
    && (forall i :: 0 <= i < GridRows ==> |res.sheet[i]| == SheetColumns)
    && (forall i, c :: 0 <= i < GridRows && 0 <= c < SheetColumns ==>
          res.sheet[i][c] == SheetCellAt(res.year, BuildGrid(YearTotals(data)), YearAda(data), PriorGrid(PriorRows(upload, res.year)), i, c))
    && (res.summary.None? <==> exists m :: 1 <= m <= MonthsPerYear && SummaryRaises(data, m))
    && (res.summary.Some? ==>
          && |res.summary.value.lines| == MonthsPerYear
          && (forall k :: 0 <= k < MonthsPerYear ==>
                res.summary.value.lines[k] == MonthLine(res.year, MonthAbbrev[k], MonthMoves(data, k + 1)))
          && res.summary.value.totalMoves == BuildGrid(YearTotals(data))[MonthlyTotalsRow][TotalColumn])
  }

  /** The `for yr in years` loop with `collect_all_data_for_year` given as
      `scraped`: one result per year with data, in request order. */
  method ProcessYears(years: seq<int>, scraped: int -> seq<Row>, upload: Option<seq<Row>>)
    returns (results: seq<YearResult>)
    ensures |results| == |YearsWithData(years, scraped)|
    ensures forall k :: 0 <= k < |results| ==> results[k].year == YearsWithData(years, scraped)[k]
    ensures forall k :: 0 <= k < |results| ==> IsResultFor(results[k], scraped, upload)
  {
    results := [];
    for i := 0 to |years|
      invariant |results| == |YearsWithData(years[..i], scraped)|
      invariant forall k :: 0 <= k < |results| ==> results[k].year == YearsWithData(years[..i], scraped)[k]
      invariant forall k :: 0 <= k < |results| ==> IsResultFor(results[k], scraped, upload)
    {
      var yr := years[i];
      assert years[..i + 1][..i] == years[..i];
      var data := scraped(yr);
      if data == [] {
        continue;
      }
      var prior := PriorRows(upload, yr);
      var sheet := GenerateDailyTotals(data, yr, prior);
      var summary := MonthSummary(yr, data);
      results := results + [YearResult(yr, sheet, summary)];
    }
    assert years[..|years|] == years;
  }

  /** The kept years are requested years with rows, and stay strictly
      ascending when the requested years are (as `parse_years_input` returns
      them), so sorting the yearly summary by year changes nothing. */
  lemma {:induction false} YearsWithDataKept(years: seq<int>, scraped: int -> seq<Row>)
    ensures forall y :: y in YearsWithData(years, scraped) <==> y in years && scraped(y) != []
    ensures StrictlyAscending(years) ==> StrictlyAscending(YearsWithData(years, scraped))
  {
    if years != [] {
      var n := |years| - 1;
      YearsWithDataKept(years[..n], scraped);
      assert years == years[..n] + [years[n]];
      if StrictlyAscending(years) {
        assert StrictlyAscending(years[..n]);
        var init := YearsWithData(years[..n], scraped);
        forall y | y in init ensures y < years[n] {
          var j :| 0 <= j < n && years[..n][j] == y;
        }
        if scraped(years[n]) != [] {
          var r := init + [years[n]];
          forall i, j | 0 <= i < j < |r| ensures r[i] < r[j] {
            if j == |init| {
              assert r[i] == init[i] && init[i] in init;
            }
          }
        }
      }
    }
  }
}

=== FILE: report.dfy ===
/** The second half of `generate_daily_totals_excel`: the 32 x 13 table of
    days (then `Monthly Totals`) by months (then `Total`), and the body of the
    "Daily Totals" worksheet written from it, each day cell holding the day's
    total, its change against the prior upload and an ADA marker, shaded on
    weekends. */
module Report {
  import opened Wrappers
  import opened Text
  import opened Calendar
  import opened Grid
  import opened Aggregate

  const MonthlyTotalsRow: nat := 31
  const TotalColumn: nat := 12
  const GridRows: nat := 32
  const GridColumns: nat := 13

  /** The twelve month values of day `d`, January first. */
  function DayRow(t: MonthMap, d: int): (r: seq<nat>)
    ensures |r| == MonthsPerYear && forall k :: 0 <= k < MonthsPerYear ==> r[k] == At(t, k + 1, d)
  {
    seq(MonthsPerYear, k requires 0 <= k < MonthsPerYear => At(t, k + 1, d))
  }

  /** The rows of days 1..31. */
  function DayRows(t: MonthMap): (r: seq<seq<nat>>)
    ensures |r| == DaysPerGrid && IsMatrix(r, MonthsPerYear)
    ensures forall i :: 0 <= i < DaysPerGrid ==> r[i] == DayRow(t, i + 1)
  {
    seq(DaysPerGrid, i requires 0 <= i < DaysPerGrid => DayRow(t, i + 1))
  }

  /** `new_df`: the day rows, then their column sums (`Monthly Totals`), each
      row followed by its sum over the twelve months (`Total`). */
  function BuildGrid(t: MonthMap): (g: seq<seq<nat>>)
    ensures |g| == GridRows && IsMatrix(g, GridColumns)
    ensures forall i, k :: 0 <= i < DaysPerGrid && 0 <= k < MonthsPerYear ==> g[i][k] == At(t, k + 1, i + 1)
  {
    var days := DayRows(t);
    var body := days + [ColumnTotals(days, MonthsPerYear)];
    seq(GridRows, i requires 0 <= i < GridRows => body[i] + [Sum(body[i])])
  }

  /** The totals of the grid are consistent: every `Total` entry sums its
      row's twelve months, and every `Monthly Totals` entry sums its column's
      31 days; in particular the corner is both the sum of the monthly totals
      and the sum of the daily totals. */
  lemma GridMargins(t: MonthMap)
    ensures forall i :: 0 <= i < GridRows ==> BuildGrid(t)[i][TotalColumn] == Sum(BuildGrid(t)[i][..TotalColumn])
    ensures forall k :: 0 <= k < GridColumns ==>
              BuildGrid(t)[MonthlyTotalsRow][k] == Sum(Column(BuildGrid(t)[..MonthlyTotalsRow], k))
  {
    var g := BuildGrid(t);
    var days := DayRows(t);
    var body := days + [ColumnTotals(days, MonthsPerYear)];
    assert forall i :: 0 <= i < GridRows ==> g[i] == body[i] + [Sum(body[i])];
    forall i | 0 <= i < GridRows
      ensures g[i][TotalColumn] == Sum(g[i][..TotalColumn])
    {
      assert g[i][..TotalColumn] == body[i];
    }
    forall k | 0 <= k < MonthsPerYear
      ensures g[MonthlyTotalsRow][k] == Sum(Column(g[..MonthlyTotalsRow], k))
    {
      assert Column(g[..MonthlyTotalsRow], k) == Column(days, k);
    }
    assert Column(g[..MonthlyTotalsRow], TotalColumn) == RowTotals(days);
    TotalsInterchange(days, MonthsPerYear);
  }

  /** The twelve months' sums over days 1..31. */
  function MonthSums(t: MonthMap): (r: seq<nat>)
    requires IsYearMap(t)
    ensures |r| == MonthsPerYear && forall k :: 0 <= k < MonthsPerYear ==> r[k] == Sum(DaysOf(t[k + 1]))
  {
    seq(MonthsPerYear, k requires 0 <= k < MonthsPerYear => Sum(DaysOf(t[k + 1])))
  }

  /** The `Monthly Totals` row holds each month's sum over its 31 days, and
      the corner cell the sum of those. */
  lemma MonthlyTotals(t: MonthMap)
    requires IsYearMap(t)
    ensures BuildGrid(t)[MonthlyTotalsRow][..TotalColumn] == MonthSums(t)
    ensures BuildGrid(t)[MonthlyTotalsRow][TotalColumn] == Sum(MonthSums(t))
  {
    var g := BuildGrid(t);
    GridMargins(t);
    forall k | 0 <= k < MonthsPerYear
      ensures g[MonthlyTotalsRow][k] == Sum(DaysOf(t[k + 1]))
    {
      assert Column(g[..MonthlyTotalsRow], k) == DaysOf(t[k + 1]);
    }
    assert g[MonthlyTotalsRow][..TotalColumn] == MonthSums(t);
  }

  // ----- the text of a day cell --------------------------------------------

  const Up: char := '\U{2191}'
  const Down: char := '\U{2193}'

  /** `f" ↑{diff}"`, `f" ↓{abs(diff)}"`, or nothing when the day is unchanged. */
  function Arrow(diff: int): (r: string)
    ensures r == "" <==> diff == 0
    ensures r != "" ==> |r| >= 3 && r[0] == ' ' && (r[1] == Up <==> diff > 0) && (r[1] == Down <==> diff < 0)
    ensures r != "" ==> IsDigit(r[|r| - 1])
  {
    if diff > 0 then [' ', Up] + Decimal(diff)
    else if diff < 0 then [' ', Down] + Decimal(-diff)
    else ""
  }

  /** The text written into a day cell: the value, its change against the
      prior value when there is one, and `*` when the day had ADA jobs. */
  function CellText(value: nat, prior: Option<nat>, ada: nat): (r: string)
    ensures prior.None? || prior.value == value ==> r == Decimal(value) + (if ada > 0 then "*" else "")
    ensures r != [] && (r[|r| - 1] == '*' <==> ada > 0)
  {
    var digits := Decimal(value);
    var arrow := if prior.Some? then Arrow(value - prior.value) else "";
    var star := if ada > 0 then "*" else "";
    assert IsDigit(digits[|digits| - 1]);
    assert arrow == "" || IsDigit(arrow[|arrow| - 1]);
    digits + arrow + star
  }

  /** What a reader of the sheet recovers from a day cell. */
  datatype CellFields = CellFields(value: nat, change: int, ada: bool)

  /** The change a day cell reports: 0 without a prior value. */
  function Change(value: nat, prior: Option<nat>): int {
    if prior.Some? then value - prior.value else 0
  }

  /** Reads a day cell's text back: digits, then optionally a space, an arrow
      and digits, then optionally `*`. */
  function DecodeCell(s: string): Option<CellFields> {
    var (digits, rest) := SpanDigits(s);
    if digits == [] then None
    else match DecodeChange(rest)
      case None => None
      case Some((change, tail)) =>
        if tail == [] then Some(CellFields(ValueOf(digits), change, false))
        else if tail == "*" then Some(CellFields(ValueOf(digits), change, true))
        else None
  }

  function DecodeChange(s: string): Option<(int, string)> {
    if |s| >= 2 && s[0] == ' ' && (s[1] == Up || s[1] == Down) then
      var (digits, tail) := SpanDigits(s[2..]);
      var n: int := ValueOf(digits);
      if digits == [] then None
      else Some((if s[1] == Up then n else -n, tail))
    else Some((0, s))
  }

  /** A day cell's text determines the value, the signed change against the
      prior value and whether the day had ADA jobs. */
  lemma CellTextRoundTrip(value: nat, prior: Option<nat>, ada: nat)
    ensures DecodeCell(CellText(value, prior, ada)) == Some(CellFields(value, Change(value, prior), ada > 0))
  {
    var star := if ada > 0 then "*" else "";
    var diff := Change(value, prior);
    assert CellText(value, prior, ada) == Decimal(value) + (Arrow(diff) + star);
    DecodeCellOf(value, diff, star);
  }

  lemma DecodeCellOf(value: nat, diff: int, tail: string)
    requires tail == "" || tail == "*"
    ensures DecodeCell(Decimal(value) + (Arrow(diff) + tail)) == Some(CellFields(value, diff, tail == "*"))
  {
    var rest := Arrow(diff) + tail;
    assert rest != [] ==> rest[0] == ' ' || rest[0] == '*';
    SpanDigitsOfConcat(Decimal(value), rest);
    ValueOfDecimal(value);
    DecodeChangeOf(diff, tail);
  }

  lemma DecodeChangeOf(diff: int, tail: string)
    requires tail == "" || tail == "*"
    ensures DecodeChange(Arrow(diff) + tail) == Some((diff, tail))
  {
    if diff > 0 {
      DecodeArrow(Up, diff, tail);
    } else if diff < 0 {
      DecodeArrow(Down, -diff, tail);
    } else {
      assert Arrow(diff) + tail == tail;
    }
  }

  lemma DecodeArrow(arrow: char, n: nat, tail: string)
    requires arrow == Up || arrow == Down
    requires tail == "" || tail == "*"
    ensures DecodeChange([' ', arrow] + Decimal(n) + tail) == Some(((if arrow == Up then 1 else -1) * n, tail))
  {
    var d := Decimal(n);
    var s := [' ', arrow] + d + tail;
    assert |s| >= 2 && s[0] == ' ' && s[1] == arrow;
    assert s[2..] == d + tail;
    SpanDigitsOfConcat(d, tail);
    assert SpanDigits(s[2..]) == (d, tail);
    ValueOfDecimal(n);
    assert d != [] && ValueOf(d) == n;
  }

  // ----- the worksheet body ------------------------------------------------

  /** The three cell formats of the body: `left_fmt`, `data_fmt` and
      `weekend_fmt` (grey). */
  datatype Style = LabelStyle | DataStyle | WeekendStyle

  datatype SheetCell = Number(n: int, style: Style) | Text(text: string, style: Style)

  /** What a reader recovers from a text cell; nothing from a number cell. */
  function ReadBack(c: SheetCell): Option<CellFields> {
    if c.Text? then DecodeCell(c.text) else None
  }

  const SheetColumns: nat := 14

  /** Day cells are shaded when the date exists and falls on a Saturday or a
      Sunday; days a month does not have (February 30) are not. */
  function DayStyle(year: int, m: int, d: int): (s: Style)
    ensures s != LabelStyle
    ensures s == WeekendStyle <==> IsValidDate(year, m, d) && Weekday(year, m, d) >= 5
  {
    if IsValidDate(year, m, d) && Weekday(year, m, d) >= 5 then WeekendStyle else DataStyle
  }

  predicate IsGrid(g: seq<seq<nat>>) {
    |g| == GridRows && IsMatrix(g, GridColumns)
  }

  /** What the body of the worksheet holds at grid row `i` and sheet column
      `c`: the day label (or `Monthly Totals`), the twelve months, the row
      total. */
  function SheetCellAt(year: int, g: seq<seq<nat>>, ada: MonthMap, prior: Option<seq<seq<nat>>>, i: int, c: int): (r: SheetCell)
    requires IsGrid(g) && (prior.Some? ==> IsGrid(prior.value))
    requires 0 <= i < GridRows && 0 <= c < SheetColumns
    ensures r.Text? <==> (c == 0 && i == MonthlyTotalsRow) || (1 <= c <= MonthsPerYear && i != MonthlyTotalsRow)
    ensures r.style == LabelStyle <==> c == 0
    ensures r.style == WeekendStyle ==> 1 <= c <= MonthsPerYear && i < MonthlyTotalsRow && IsValidDate(year, c, i + 1)
  {
    if c == 0 then
      (if i < MonthlyTotalsRow then Number(i + 1, LabelStyle) else Text("Monthly Totals", LabelStyle))
    else if c == SheetColumns - 1 then Number(g[i][TotalColumn], DataStyle)
    else if i == MonthlyTotalsRow then Number(g[i][c - 1], DataStyle)
    else
      var before := if prior.Some? then Some(prior.value[i][c - 1]) else None;
      Text(CellText(g[i][c - 1], before, At(ada, c, i + 1)), DayStyle(year, c, i + 1))
  }

  /** The loop over `new_df.index` that writes the body of the sheet, one
      row per grid row and fourteen cells per row. */
  method RenderSheet(year: int, g: seq<seq<nat>>, ada: MonthMap, prior: Option<seq<seq<nat>>>)
    returns (sheet: seq<seq<SheetCell>>)
    requires IsGrid(g) && (prior.Some? ==> IsGrid(prior.value))
    ensures |sheet| == GridRows
    ensures forall i :: 0 <= i < GridRows ==> |sheet[i]| == SheetColumns
    ensures forall i, c :: 0 <= i < GridRows && 0 <= c < SheetColumns ==>
              sheet[i][c] == SheetCellAt(year, g, ada, prior, i, c)
  {
    sheet := [];
    for i := 0 to GridRows
      invariant |sheet| == i
      invariant forall r :: 0 <= r < i ==> |sheet[r]| == SheetColumns
      invariant forall r, c :: 0 <= r < i && 0 <= c < SheetColumns ==>
                  sheet[r][c] == SheetCellAt(year, g, ada, prior, r, c)
    {
      var row := RenderRow(year, g, ada, prior, i);
      sheet := sheet + [row];
    }
  }

  /** One row of the sheet: its label, a cell per month, and its total. */
  method RenderRow(year: int, g: seq<seq<nat>>, ada: MonthMap, prior: Option<seq<seq<nat>>>, i: int)
    returns (row: seq<SheetCell>)
    requires IsGrid(g) && (prior.Some? ==> IsGrid(prior.value))
    requires 0 <= i < GridRows
    ensures |row| == SheetColumns
    ensures forall c :: 0 <= c < SheetColumns ==> row[c] == SheetCellAt(year, g, ada, prior, i, c)
  {
    if i == MonthlyTotalsRow {
      row := [Text("Monthly Totals", LabelStyle)];
    } else {
      row := [Number(i + 1, LabelStyle)];
    }
    for c := 1 to SheetColumns - 1
      invariant |row| == c
      invariant forall j :: 0 <= j < c ==> row[j] == SheetCellAt(year, g, ada, prior, i, j)
    {
      var cell := RenderCell(year, g, ada, prior, i, c);
      row := row + [cell];
    }
    row := row + [Number(g[i][TotalColumn], DataStyle)];
  }

  /** The body of the month loop, step by step as it writes the cell of
      month `c` in grid row `i`: a bare number in the Monthly Totals row,
      otherwise the value, its change against the prior grid and the
      wheelchair mark, styled as a weekend when the date is one. SheetCellAt
      is the value it is proved to write. */
  method RenderCell(year: int, g: seq<seq<nat>>, ada: MonthMap, prior: Option<seq<seq<nat>>>, i: int, c: int)
    returns (cell: SheetCell)
    requires IsGrid(g) && (prior.Some? ==> IsGrid(prior.value))
    requires 0 <= i < GridRows && 1 <= c < SheetColumns - 1
    ensures cell == SheetCellAt(year, g, ada, prior, i, c)
  {
    var newVal := g[i][c - 1];
    if i == MonthlyTotalsRow {
      cell := Number(newVal, DataStyle);
    } else {
      var before: Option<nat> := if prior.Some? then Some(prior.value[i][c - 1]) else None;
      var arrow := "";
      if prior.Some? {
        var diff := newVal as int - prior.value[i][c - 1] as int;
        if diff > 0 {
          arrow := [' ', Up] + Decimal(diff);
        } else if diff < 0 {
          arrow := [' ', Down] + Decimal(-diff);
        }
        assert arrow == Arrow(newVal - before.value);
      }
      var txt := Decimal(newVal) + arrow;
      if At(ada, c, i + 1) > 0 {
        txt := txt + "*";
      }
      assert txt == CellText(newVal, before, At(ada, c, i + 1));
      var style := DataStyle;
      if IsValidDate(year, c, i + 1) && Weekday(year, c, i + 1) >= 5 {
        style := WeekendStyle;
      }
      assert style == DayStyle(year, c, i + 1);
      cell := Text(txt, style);
    }
  }

  /** The prior grid, built only when prior rows were supplied and are not
      empty. */
  function PriorGrid(oldRows: Option<seq<Row>>): (p: Option<seq<seq<nat>>>)
    ensures p.Some? <==> oldRows.Some? && oldRows.value != []
    ensures p.Some? ==> IsGrid(p.value)
  {
    if oldRows.Some? && oldRows.value != [] then Some(BuildGrid(YearTotals(oldRows.value))) else None
  }

  /** `generate_daily_totals_excel(new_data, year, path, old_raw_df)` up to
      the formatting: the body of the sheet it writes. */
  method GenerateDailyTotals(newRows: seq<Row>, year: int, oldRows: Option<seq<Row>>)
    returns (sheet: seq<seq<SheetCell>>)
    ensures |sheet| == GridRows
    ensures forall i :: 0 <= i < GridRows ==> |sheet[i]| == SheetColumns
    ensures forall i, c :: 0 <= i < GridRows && 0 <= c < SheetColumns ==>
              sheet[i][c] == SheetCellAt(year, BuildGrid(YearTotals(newRows)), YearAda(newRows), PriorGrid(oldRows), i, c)
  {
    var totalsNew, adaNew, totalsOld := MonthlyTables(newRows, oldRows);
    var g := BuildGrid(totalsNew);
    var prior: Option<seq<seq<nat>>> := None;
    if totalsOld.Some? {
      prior := Some(BuildGrid(totalsOld.value));
    }
    sheet := RenderSheet(year, g, adaNew, prior);
  }

  // ----- what the sheet says about the rows --------------------------------

  /** The day cell of month `m`, day `d` reads back as that day's total, its
      change against the prior upload's total for the same day (0 without a
      prior upload), and an ADA marker exactly when the month's Wheelchair
      row has jobs that day; it is grey exactly on real Saturdays and
      Sundays. */
  lemma DayCell(year: int, newRows: seq<Row>, oldRows: Option<seq<Row>>, m: int, d: int)
    requires 1 <= m <= MonthsPerYear && 1 <= d <= DaysPerGrid
    ensures ReadBack(SheetCellAt(year, BuildGrid(YearTotals(newRows)), YearAda(newRows), PriorGrid(oldRows), d - 1, m))
         == Some(CellFields(MonthTotals(newRows, m)[d],
                            Change(MonthTotals(newRows, m)[d], PriorTotal(oldRows, m, d)),
                            MonthAda(newRows, m)[d] > 0))
    ensures SheetCellAt(year, BuildGrid(YearTotals(newRows)), YearAda(newRows), PriorGrid(oldRows), d - 1, m).style == WeekendStyle
        <==> IsValidDate(year, m, d) && Weekday(year, m, d) >= 5
  {
    var priorT := if oldRows.Some? && oldRows.value != [] then Some(YearTotals(oldRows.value)) else None;
    assert PriorTotal(oldRows, m, d) == if priorT.Some? then Some(At(priorT.value, m, d)) else None;
    DayCellOfTables(year, YearTotals(newRows), YearAda(newRows), priorT, m, d);
    YearTables(newRows);
    if priorT.Some? {
      YearTables(oldRows.value);
    }
  }

  /** DayCell for any month maps. */
  lemma DayCellOfTables(year: int, t: MonthMap, ada: MonthMap, priorT: Option<MonthMap>, m: int, d: int)
    requires 1 <= m <= MonthsPerYear && 1 <= d <= DaysPerGrid
    ensures var prior := if priorT.Some? then Some(BuildGrid(priorT.value)) else None;
      && ReadBack(SheetCellAt(year, BuildGrid(t), ada, prior, d - 1, m))
         == Some(CellFields(At(t, m, d), Change(At(t, m, d), if priorT.Some? then Some(At(priorT.value, m, d)) else None), At(ada, m, d) > 0))
      && (SheetCellAt(year, BuildGrid(t), ada, prior, d - 1, m).style == WeekendStyle
          <==> IsValidDate(year, m, d) && Weekday(year, m, d) >= 5)
  {
    var prior := if priorT.Some? then Some(BuildGrid(priorT.value)) else None;
    var before := if priorT.Some? then Some(At(priorT.value, m, d)) else None;
    DayCellOfGrid(year, BuildGrid(t), ada, prior, d - 1, m);
    CellTextRoundTrip(At(t, m, d), before, At(ada, m, d));
  }

  /** The day entries of the grid are the month totals. */
  lemma GridDay(rows: seq<Row>, m: int, d: int)
    requires 1 <= m <= MonthsPerYear && 1 <= d <= DaysPerGrid
    ensures BuildGrid(YearTotals(rows))[d - 1][m - 1] == MonthTotals(rows, m)[d]
  {
    YearTables(rows);
  }

  lemma DayCellOfGrid(year: int, g: seq<seq<nat>>, ada: MonthMap, prior: Option<seq<seq<nat>>>, i: int, c: int)
    requires IsGrid(g) && (prior.Some? ==> IsGrid(prior.value))
    requires 0 <= i < MonthlyTotalsRow && 1 <= c <= MonthsPerYear
    ensures SheetCellAt(year, g, ada, prior, i, c)
         == Text(CellText(g[i][c - 1], if prior.Some? then Some(prior.value[i][c - 1]) else None, At(ada, c, i + 1)),
                 DayStyle(year, c, i + 1))
  {
  }

  /** The prior upload's total for month `m`, day `d`, when there is a
      non-empty prior upload. */
  function PriorTotal(oldRows: Option<seq<Row>>, m: int, d: int): (r: Option<nat>)
    ensures r.Some? <==> oldRows.Some? && oldRows.value != []
    ensures r.Some? && 1 <= m <= MonthsPerYear && 1 <= d <= DaysPerGrid ==> r.value == MonthTotals(oldRows.value, m)[d]
  {
    if oldRows.Some? && oldRows.value != [] then
      YearTables(oldRows.value);
      Some(At(YearTotals(oldRows.value), m, d))
    else None
  }

  /** Against a non-empty prior upload that has no rows for month `m`, every
      day of `m` with a positive total reads as an increase by the whole
      total: the comparison runs even when the prior upload lacks the
      month. */
  lemma MissingPriorMonthShowsIncrease(year: int, newRows: seq<Row>, oldRows: seq<Row>, m: int, d: int)
    requires oldRows != []
    requires forall j :: 0 <= j < |oldRows| ==> oldRows[j].month != m
    requires 1 <= m <= MonthsPerYear && 1 <= d <= DaysPerGrid
    requires MonthTotals(newRows, m)[d] > 0
    ensures ReadBack(SheetCellAt(year, BuildGrid(YearTotals(newRows)), YearAda(newRows), PriorGrid(Some(oldRows)), d - 1, m))
         == Some(CellFields(MonthTotals(newRows, m)[d], MonthTotals(newRows, m)[d], MonthAda(newRows, m)[d] > 0))
  {
    PriorTotalOfMissingMonth(oldRows, m, d);
    DayCell(year, newRows, Some(oldRows), m, d);
  }

  /** A prior upload without rows for month `m` supplies 0 for every day of it. */
  lemma PriorTotalOfMissingMonth(oldRows: seq<Row>, m: int, d: int)
    requires oldRows != []
    requires forall j :: 0 <= j < |oldRows| ==> oldRows[j].month != m
    requires 1 <= m <= MonthsPerYear && 1 <= d <= DaysPerGrid
    ensures PriorTotal(Some(oldRows), m, d) == Some(0)
  {
    EmptyMonthIsZero(oldRows, m, d);
    YearTables(oldRows);
  }
}

=== FILE: summary.dfy ===
/** The month summary shown (and mailed) for each processed year: per month
    the total number of moves, and the year's total. */
module Summary {
  import opened Wrappers
  import opened Text
  import opened Grid
  import opened Aggregate
  import opened Report

  const MonthAbbrev: seq<string> := ["Jan", "Feb", "Mar", "Apr", "May", "Jun", "Jul", "Aug", "Sep", "Oct", "Nov", "Dec"]

  /** One row of `month_df`: `{"Year", "Month", "Total Moves"}`. */
  datatype MonthLine = MonthLine(year: int, month: string, totalMoves: nat)

  /** A row's moves over days 1..31. */
  function RowMoves(r: Row): nat {
    Sum(DaysOf(r.cells))
  }

  /** `sub[days].sum()`: column sums over days 1..31. */
  function DayColumnSums(rows: seq<Row>): (s: seq<nat>)
    ensures |s| == DaysPerGrid && forall i :: 0 <= i < DaysPerGrid ==> s[i] == ColumnSum(rows, i + 1)
  {
    seq(DaysPerGrid, i requires 0 <= i < DaysPerGrid => ColumnSum(rows, i + 1))
  }

  /** The moves a month is meant to contribute: 0 for a month without rows,
      the day sum of the month's first TOTAL row if it has one, and otherwise
      the sum of the month's day columns. Whichever branch applies, this is
      the month's `Monthly Totals` cell of the sheet: the sum of its 31 day
      totals. */
  function MonthMoves(rows: seq<Row>, m: int): (r: nat)
    ensures r == Sum(DaysOf(MonthTotals(rows, m)))
  {
    var sub := RowsOfMonth(rows, m);
    match FirstDesignated(sub, TotalRow)
    case Some(tr) =>
      assert DaysOf(MonthTotals(rows, m)) == DaysOf(tr.cells);
      RowMoves(tr)
    case None =>
      assert DaysOf(MonthTotals(rows, m)) == DayColumnSums(sub);
      if sub == [] then
        SumZeros(DayColumnSums(sub));
        0
      else Sum(DayColumnSums(sub))
  }

  /** The summary step fails on month `m`: the month has rows but none of
      them is a TOTAL row, so the day columns are handed to `pd.to_numeric`
      as a whole table, which it rejects with a TypeError. */
  predicate SummaryRaises(rows: seq<Row>, m: int) {
    RowsOfMonth(rows, m) != [] && FirstDesignated(RowsOfMonth(rows, m), TotalRow).None?
  }

  /** A month with one bus row and no TOTAL row: the summary step raises on
      it, although the moves it is meant to count are there. */
  lemma NoTotalRowRaises()
    ensures SummaryRaises([Row(2024, 3, "Bus", map[1 := 4])], 3)
    ensures MonthMoves([Row(2024, 3, "Bus", map[1 := 4])], 3) == 4
  {
    var rows := [Row(2024, 3, "Bus", map[1 := 4])];
    assert rows[1..] == [];
    assert RowsOfMonth(rows, 3) == rows;
    assert !Contains(Upper("Bus"), "TOTAL");
    var sums := DayColumnSums(rows);
    forall k | 1 <= k < DaysPerGrid ensures sums[k] == 0 {
      assert ColumnSum(rows, k + 1) == Cell(rows[0], k + 1) + ColumnSum([], k + 1);
    }
    assert sums == [4] + sums[1..];
    SumCons(4, sums[1..]);
    SumZeros(sums[1..]);
  }

  /** The `Total Moves` column of `month_df`. */
  function Moves(ms: seq<MonthLine>): (r: seq<nat>)
    ensures |r| == |ms| && forall k :: 0 <= k < |ms| ==> r[k] == ms[k].totalMoves
  {
    seq(|ms|, k requires 0 <= k < |ms| => ms[k].totalMoves)
  }

  /** `month_df` and `total_year_moves` of a year whose summary was built. */
  datatype YearSummary = YearSummary(lines: seq<MonthLine>, totalMoves: nat)

  /** The summary loop of one processed year. It fails (None) exactly when
      some month has rows but no TOTAL row. Otherwise it yields twelve lines,
      January first, and the year total, which is the corner cell of that
      year's sheet. */
  method MonthSummary(year: int, rows: seq<Row>) returns (r: Option<YearSummary>)
    ensures r.None? <==> exists m :: 1 <= m <= MonthsPerYear && SummaryRaises(rows, m)
    ensures r.Some? ==> |r.value.lines| == MonthsPerYear
    ensures r.Some? ==> forall k :: 0 <= k < MonthsPerYear ==>
              r.value.lines[k] == MonthLine(year, MonthAbbrev[k], MonthMoves(rows, k + 1))
    ensures r.Some? ==> r.value.totalMoves == Sum(Moves(r.value.lines))
    ensures r.Some? ==> r.value.totalMoves == BuildGrid(YearTotals(rows))[MonthlyTotalsRow][TotalColumn]
  {
    var ms: seq<MonthLine> := [];
    for m := 1 to MonthsPerYear + 1
      invariant |ms| == m - 1
      invariant forall k :: 0 <= k < m - 1 ==> ms[k] == MonthLine(year, MonthAbbrev[k], MonthMoves(rows, k + 1))
      invariant forall j :: 1 <= j < m ==> !SummaryRaises(rows, j)
    {
      var moves := CountMoves(rows, m);
      if moves.None? {
        return None;
      }
      ms := ms + [MonthLine(year, MonthAbbrev[m - 1], moves.value)];
    }
    var total := AddMoves(ms);
    assert Moves(ms) == MonthMovesList(rows);
    SummaryMatchesSheet(rows);
    r := Some(YearSummary(ms, total));
  }

  /** One month's `Total Moves` as the loop body computes it: 0 when the
      month has no rows, the TOTAL row's day sum when there is one, and a
      failure otherwise; whenever it succeeds it gives the month's moves. */
  method CountMoves(rows: seq<Row>, m: int) returns (moves: Option<nat>)
    ensures moves.None? <==> SummaryRaises(rows, m)
    ensures moves.Some? ==> moves.value == MonthMoves(rows, m)
  {
    var sub := RowsOfMonth(rows, m);
    if sub == [] {
      moves := Some(0);
    } else {
      var tot := FirstDesignated(sub, TotalRow);
      if tot.Some? {
        moves := Some(RowMoves(tot.value));
      } else {
        moves := None;
      }
    }
  }

  /** The running total over the summary lines. */
  method AddMoves(ms: seq<MonthLine>) returns (total: nat)
    ensures total == Sum(Moves(ms))
  {
    total := 0;
    for k := 0 to |ms|
      invariant total == Sum(Moves(ms[..k]))
    {
      assert Moves(ms[..k + 1]) == Moves(ms[..k]) + [ms[k].totalMoves];
      SumSnoc(Moves(ms[..k]), ms[k].totalMoves);
      total := total + ms[k].totalMoves;
    }
    assert ms[..|ms|] == ms;
  }

  /** The twelve months' moves, January first. */
  function MonthMovesList(rows: seq<Row>): (r: seq<nat>)
    ensures |r| == MonthsPerYear && forall k :: 0 <= k < MonthsPerYear ==> r[k] == MonthMoves(rows, k + 1)
  {
    seq(MonthsPerYear, k requires 0 <= k < MonthsPerYear => MonthMoves(rows, k + 1))
  }

  /** The summary agrees with the sheet: each month's moves are that month's
      `Monthly Totals` cell, and the year's total is the corner cell. */
  lemma SummaryMatchesSheet(rows: seq<Row>)
    ensures BuildGrid(YearTotals(rows))[MonthlyTotalsRow][..TotalColumn] == MonthMovesList(rows)
    ensures Sum(MonthMovesList(rows)) == BuildGrid(YearTotals(rows))[MonthlyTotalsRow][TotalColumn]
  {
    var t := YearTotals(rows);
    YearTables(rows);
    MonthlyTotals(t);
    assert MonthSums(t) == MonthMovesList(rows);
  }

  /** Without a TOTAL row, a month's moves are the sum of its rows' moves:
      adding the day columns and then the days is adding each row's days and
      then the rows. */
  lemma MonthMovesWithoutTotalRow(rows: seq<Row>, m: int)
    requires forall j :: 0 <= j < |rows| && rows[j].month == m ==> !Designates(TotalRow, rows[j].vehicleType)
    ensures MonthMoves(rows, m) == Sum(RowMovesList(RowsOfMonth(rows, m)))
  {
    var sub := RowsOfMonth(rows, m);
    NoneDesignatedOfMonth(rows, m, TotalRow);
    var table := DayTable(sub);
    forall i | 0 <= i < DaysPerGrid
      ensures ColumnTotals(table, DaysPerGrid)[i] == DayColumnSums(sub)[i]
    {
      ColumnSumIsSum(sub, i + 1);
      assert Column(table, i) == CellsOf(sub, i + 1);
    }
    assert ColumnTotals(table, DaysPerGrid) == DayColumnSums(sub);
    assert RowTotals(table) == RowMovesList(sub);
    TotalsInterchange(table, DaysPerGrid);
    if sub == [] {
      SumZeros(DayColumnSums(sub));
    }
  }

  /** Each row's moves, in row order. */
  function RowMovesList(rows: seq<Row>): (r: seq<nat>)
    ensures |r| == |rows| && forall j :: 0 <= j < |rows| ==> r[j] == RowMoves(rows[j])
  {
    seq(|rows|, j requires 0 <= j < |rows| => RowMoves(rows[j]))
  }

  /** The rows' days 1..31 as a table. */
  function DayTable(rows: seq<Row>): (t: seq<seq<nat>>)
    ensures |t| == |rows| && IsMatrix(t, DaysPerGrid)
    ensures forall j :: 0 <= j < |rows| ==> t[j] == DaysOf(rows[j].cells)
  {
    seq(|rows|, j requires 0 <= j < |rows| => DaysOf(rows[j].cells))
  }

  /** The rows' values in day column `d`, in row order. */
  function CellsOf(rows: seq<Row>, d: int): (c: seq<nat>)
    ensures |c| == |rows| && forall j :: 0 <= j < |rows| ==> c[j] == Cell(rows[j], d)
  {
    seq(|rows|, j requires 0 <= j < |rows| => Cell(rows[j], d))
  }

  lemma {:induction false} ColumnSumIsSum(rows: seq<Row>, d: int)
    ensures ColumnSum(rows, d) == Sum(CellsOf(rows, d))
  {
    if rows != [] {
      ColumnSumIsSum(rows[1..], d);
      assert CellsOf(rows, d) == [Cell(rows[0], d)] + CellsOf(rows[1..], d);
      SumCons(Cell(rows[0], d), CellsOf(rows[1..], d));
    }
  }
}

=== FILE: text.dfy ===
/** String helpers that app.py borrows from Python's `str` type and `re.split`:
    whitespace stripping, splitting at separator characters, ASCII digit
    strings and their values, decimal rendering, case mapping and substring
    search. */
module Text {

  /** Python's `str.isspace`: the characters `str.strip()` removes and the
      regular expression class `\s` matches. */
  predicate IsSpace(c: char) {
    || ('\U{0009}' <= c <= '\U{000D}')
    || ('\U{001C}' <= c <= '\U{0020}')
    || c == '\U{0085}' || c == '\U{00A0}' || c == '\U{1680}'
    || ('\U{2000}' <= c <= '\U{200A}')
    || c == '\U{2028}' || c == '\U{2029}' || c == '\U{202F}' || c == '\U{205F}' || c == '\U{3000}'
  }

  /** `s.lstrip()`: drops leading whitespace. */
  function StripLeft(s: string): string {
    if s != [] && IsSpace(s[0]) then StripLeft(s[1..]) else s
  }

  /** `s.rstrip()`: drops trailing whitespace. */
  function StripRight(s: string): string {
    if s != [] && IsSpace(s[|s| - 1]) then StripRight(s[..|s| - 1]) else s
  }

  /** `s.strip()`. */
  function Strip(s: string): string {
    StripRight(StripLeft(s))
  }

  /** `lstrip` keeps the longest suffix that does not start with whitespace. */
  lemma {:induction false} StripLeftSuffix(s: string)
    ensures |StripLeft(s)| <= |s| && StripLeft(s) == s[|s| - |StripLeft(s)|..]
    ensures forall k :: 0 <= k < |s| - |StripLeft(s)| ==> IsSpace(s[k])
    ensures StripLeft(s) != [] ==> !IsSpace(StripLeft(s)[0])
  {
    if s != [] && IsSpace(s[0]) {
      var t := s[1..];
      StripLeftSuffix(t);
      var n := |StripLeft(t)|;
      assert StripLeft(s) == StripLeft(t);
      assert s[|s| - n..] == t[|t| - n..];
      forall k | 1 <= k < |s| - n ensures IsSpace(s[k]) {
        assert s[k] == t[k - 1];
      }
    }
  }

  /** `rstrip` keeps the longest prefix that does not end with whitespace. */
  lemma {:induction false} StripRightPrefix(s: string)
    ensures |StripRight(s)| <= |s| && StripRight(s) == s[..|StripRight(s)|]
    ensures forall k :: |StripRight(s)| <= k < |s| ==> IsSpace(s[k])
    ensures StripRight(s) != [] ==> !IsSpace(StripRight(s)[|StripRight(s)| - 1])
  {
    if s != [] && IsSpace(s[|s| - 1]) {
      var t := s[..|s| - 1];
      StripRightPrefix(t);
      var n := |StripRight(t)|;
      assert StripRight(s) == StripRight(t);
      assert s[..n] == t[..n];
      forall k | n <= k < |s| - 1 ensures IsSpace(s[k]) {
        assert s[k] == t[k];
      }
    }
  }

  /** `strip` leaves either nothing (exactly when `s` is all whitespace) or a
      piece that neither starts nor ends with whitespace. */
  lemma StripTrims(s: string)
    ensures Strip(s) != [] ==> Trimmed(Strip(s))
    ensures Strip(s) == [] <==> forall k :: 0 <= k < |s| ==> IsSpace(s[k])
  {
    var l := StripLeft(s);
    StripLeftSuffix(s);
    StripRightPrefix(l);
    if Strip(s) != [] {
      assert Strip(s)[0] == l[0];
    }
    if l != [] {
      assert l[0] == s[|s| - |l|];
    }
  }

  /** Stripping only removes characters. */
  lemma StripAvoids(s: string, seps: set<char>)
    requires Avoids(s, seps)
    ensures Avoids(Strip(s), seps)
  {
    var l := StripLeft(s);
    var r := StripRight(l);
    StripLeftSuffix(s);
    StripRightPrefix(l);
    forall c | c in r ensures c !in seps {
      var k :| 0 <= k < |r| && r[k] == c;
      assert r[k] == l[k];
      assert l[k] == s[|s| - |l| + k];
    }
  }

  /** `p` holds none of the characters of `seps`. */
  predicate Avoids(p: string, seps: set<char>) {
    forall c :: c in p ==> c !in seps
  }

  /** `p` is non-empty and neither starts nor ends with whitespace. */
  predicate Trimmed(p: string) {
    p != [] && !IsSpace(p[0]) && !IsSpace(p[|p| - 1])
  }

  /** Index of the first character of `s` that lies in `seps`, or `|s|`. */
  function FirstIndexIn(s: string, seps: set<char>): (k: nat)
    ensures k <= |s|
    ensures forall j :: 0 <= j < k ==> s[j] !in seps
    ensures k < |s| ==> s[k] in seps
  {
    if s == [] then 0
    else if s[0] in seps then 0
    else 1 + FirstIndexIn(s[1..], seps)
  }

  /** The separator characters of `s`, in order. */
  function Separators(s: string, seps: set<char>): seq<char> {
    if s == [] then []
    else if s[0] in seps then [s[0]] + Separators(s[1..], seps)
    else Separators(s[1..], seps)
  }

  /** Pieces glued back together, the i-th gap character between pieces i and i+1. */
  function Interleave(pieces: seq<string>, gaps: seq<char>): string
    requires |pieces| == |gaps| + 1
  {
    if |pieces| == 1 then pieces[0]
    else pieces[0] + [gaps[0]] + Interleave(pieces[1..], gaps[1..])
  }

  /** `re.split("[...]", s)` for a class of single characters, and `s.split(c)`
      when `seps == {c}`: empty pieces are kept, so there is always one more
      piece than there are separators, and gluing the pieces back together
      with the separators found gives `s` again. */
  function SplitAny(s: string, seps: set<char>): (r: seq<string>)
    ensures |r| == |Separators(s, seps)| + 1
    ensures forall i :: 0 <= i < |r| ==> Avoids(r[i], seps)
    ensures Interleave(r, Separators(s, seps)) == s
    decreases |s|
  {
    var k := FirstIndexIn(s, seps);
    if k == |s| then
      SeparatorsNone(s, seps);
      [s]
    else
      SeparatorsAfterPlainPrefix(s, seps, k);
      assert s == s[..k] + [s[k]] + s[k + 1..];
      [s[..k]] + SplitAny(s[k + 1..], seps)
  }

  lemma {:induction false} SeparatorsNone(s: string, seps: set<char>)
    requires forall j :: 0 <= j < |s| ==> s[j] !in seps
    ensures Separators(s, seps) == []
    decreases |s|
  {
    if s != [] {
      SeparatorsNone(s[1..], seps);
    }
  }

  lemma {:induction false} SeparatorsAfterPlainPrefix(s: string, seps: set<char>, k: nat)
    requires k < |s| && s[k] in seps
    requires forall j :: 0 <= j < k ==> s[j] !in seps
    ensures Separators(s, seps) == [s[k]] + Separators(s[k + 1..], seps)
    decreases k
  {
    if k > 0 {
      SeparatorsAfterPlainPrefix(s[1..], seps, k - 1);
      assert s[1..][k..] == s[k + 1..];
    }
  }

  /** `[p.strip() for p in pieces if p.strip()]`: stripping never brings in a
      character a piece did not have. */
  function StripNonEmpty(pieces: seq<string>, ghost seps: set<char>): (r: seq<string>)
    requires forall i :: 0 <= i < |pieces| ==> Avoids(pieces[i], seps)
    ensures |r| <= |pieces|
    ensures forall i :: 0 <= i < |r| ==> Trimmed(r[i]) && Avoids(r[i], seps)
  {
    if pieces == [] then []
    else
      var p := Strip(pieces[0]);
      var rest := StripNonEmpty(pieces[1..], seps);
      if p != [] then
        StripAvoids(pieces[0], seps);
        StripTrims(pieces[0]);
        var r := [p] + rest;
        assert forall i :: 1 <= i < |r| ==> r[i] == rest[i - 1];
        r
      else rest
  }

  /** A string is kept iff it is the non-empty strip of some piece. */
  lemma {:induction false} StripNonEmptyHas(pieces: seq<string>, seps: set<char>)
    requires forall i :: 0 <= i < |pieces| ==> Avoids(pieces[i], seps)
    ensures forall p :: p in StripNonEmpty(pieces, seps) <==> p != [] && exists q :: q in pieces && Strip(q) == p
  {
    if pieces != [] {
      var rest := pieces[1..];
      StripNonEmptyHas(rest, seps);
      assert pieces == [pieces[0]] + rest;
      forall p | p != [] && (exists q :: q in pieces && Strip(q) == p)
        ensures p in StripNonEmpty(pieces, seps)
      {
        var q :| q in pieces && Strip(q) == p;
        if q != pieces[0] {
          assert q in rest;
        }
      }
    }
  }

  /** Stripping keeps the order of the pieces: two lists one after the other
      give their kept pieces one after the other. */
  lemma {:induction false} StripNonEmptyAppend(a: seq<string>, b: seq<string>, seps: set<char>)
    requires forall i :: 0 <= i < |a| ==> Avoids(a[i], seps)
    requires forall i :: 0 <= i < |b| ==> Avoids(b[i], seps)
    ensures StripNonEmpty(a + b, seps) == StripNonEmpty(a, seps) + StripNonEmpty(b, seps)
  {
    if a == [] {
      assert a + b == b;
    } else {
      var ab := a + b;
      assert ab[0] == a[0];
      assert ab[1..] == a[1..] + b;
      StripNonEmptyAppend(a[1..], b, seps);
      var p := Strip(a[0]);
      if p != [] {
        assert StripNonEmpty(ab, seps) == [p] + StripNonEmpty(ab[1..], seps);
        assert StripNonEmpty(a, seps) == [p] + StripNonEmpty(a[1..], seps);
      } else {
        assert StripNonEmpty(ab, seps) == StripNonEmpty(ab[1..], seps);
        assert StripNonEmpty(a, seps) == StripNonEmpty(a[1..], seps);
      }
    }
  }

  /** A single piece is kept, stripped, exactly when its strip is not empty. */
  lemma StripNonEmptyOne(q: string, seps: set<char>)
    requires Avoids(q, seps)
    ensures StripNonEmpty([q], seps) == if Strip(q) != [] then [Strip(q)] else []
  {
    assert [q][1..] == [];
  }

  /** The pieces are exactly the non-empty strips of the split's parts. */
  lemma PiecesHas(s: string, seps: set<char>)
    ensures forall p :: p in Pieces(s, seps) <==> p != [] && exists q :: q in SplitAny(s, seps) && Strip(q) == p
  {
    StripNonEmptyHas(SplitAny(s, seps), seps);
  }

  /** The trimmed, non-empty pieces of `s` between separator characters, in
      input order: the list both the year parser and the email validator start
      from. */
  function Pieces(s: string, seps: set<char>): (r: seq<string>)
    ensures forall i :: 0 <= i < |r| ==> Trimmed(r[i]) && Avoids(r[i], seps)
  {
    StripNonEmpty(SplitAny(s, seps), seps)
  }

  // ----- digits -----------------------------------------------------------

  predicate IsDigit(c: char) {
    '0' <= c <= '9'
  }

  /** `s.isdigit()` restricted to ASCII digits: non-empty and all digits. */
  predicate IsDigits(s: string) {
    |s| > 0 && forall k :: 0 <= k < |s| ==> IsDigit(s[k])
  }

  /** `int(s)` for a string of ASCII digits (leading zeros allowed). */
  function ValueOf(s: string): nat
    requires forall k :: 0 <= k < |s| ==> IsDigit(s[k])
  {
    if s == [] then 0
    else 10 * ValueOf(s[..|s| - 1]) + DigitValue(s[|s| - 1])
  }

  function DigitValue(c: char): nat
    requires IsDigit(c)
  {
    c as int - '0' as int
  }

  function DigitChar(d: nat): (c: char)
    requires d < 10
    ensures IsDigit(c) && DigitValue(c) == d
  {
    (d + '0' as int) as char
  }

  /** `str(n)` for a natural number: its decimal digits, no leading zero. */
  function Decimal(n: nat): (r: string)
    ensures IsDigits(r)
    ensures r[0] == '0' ==> n == 0
  {
    if n < 10 then [DigitChar(n)] else Decimal(n / 10) + [DigitChar(n % 10)]
  }

  /** Reading back the decimal text of a number gives the number. */
  lemma {:induction false} ValueOfDecimal(n: nat)
    ensures ValueOf(Decimal(n)) == n
  {
    if n >= 10 {
      var s := Decimal(n);
      assert s[..|s| - 1] == Decimal(n / 10);
      ValueOfDecimal(n / 10);
    }
  }

  /** The longest prefix of `s` made of digits, and what follows it. */
  function SpanDigits(s: string): (r: (string, string))
    ensures r.0 + r.1 == s
    ensures forall k :: 0 <= k < |r.0| ==> IsDigit(r.0[k])
    ensures r.1 != [] ==> !IsDigit(r.1[0])
  {
    if s != [] && IsDigit(s[0]) then
      var t := SpanDigits(s[1..]);
      ([s[0]] + t.0, t.1)
    else ([], s)
  }

  /** Digits followed by text that does not start with a digit split back
      exactly at the boundary. */
  lemma {:induction false} SpanDigitsOfConcat(d: string, t: string)
    requires forall k :: 0 <= k < |d| ==> IsDigit(d[k])
    requires t != [] ==> !IsDigit(t[0])
    ensures SpanDigits(d + t) == (d, t)
  {
    if d != [] {
      assert (d + t)[0] == d[0];
      assert (d + t)[1..] == d[1..] + t;
      SpanDigitsOfConcat(d[1..], t);
      assert [d[0]] + d[1..] == d;
    } else {
      assert d + t == t;
    }
  }

  // ----- case mapping and search ------------------------------------------

  function UpperChar(c: char): char {
    if 'a' <= c <= 'z' then (c as int - 32) as char else c
  }

  function LowerChar(c: char): char {
    if 'A' <= c <= 'Z' then (c as int + 32) as char else c
  }

  /** `s.upper()` on ASCII letters. */
  function Upper(s: string): string {
    seq(|s|, i requires 0 <= i < |s| => UpperChar(s[i]))
  }

  /** `s.lower()` on ASCII letters. */
  function Lower(s: string): string {
    seq(|s|, i requires 0 <= i < |s| => LowerChar(s[i]))
  }

  /** Case mapping forgets the case it started from: mapping twice is
      mapping once, and lower-casing an upper-cased string (or the reverse)
      is lower-casing (upper-casing) the original. */
  lemma CaseFolds(s: string)
    ensures Upper(Upper(s)) == Upper(s) && Lower(Lower(s)) == Lower(s)
    ensures Lower(Upper(s)) == Lower(s) && Upper(Lower(s)) == Upper(s)
  {
    assert forall i :: 0 <= i < |s| ==> LowerChar(UpperChar(s[i])) == LowerChar(s[i]);
    assert forall i :: 0 <= i < |s| ==> UpperChar(LowerChar(s[i])) == UpperChar(s[i]);
  }

  /** `t` occurs in `s` starting at index `i`. */
  predicate OccursAt(s: string, t: string, i: int) {
    0 <= i && i + |t| <= |s| && s[i..i + |t|] == t
  }

  /** Python's `t in s`. */
  function Contains(s: string, t: string): (r: bool)
    ensures r <==> exists i :: OccursAt(s, t, i)
  {
    if |t| > |s| then
      assert forall i :: !OccursAt(s, t, i);
      false
    else if s[..|t|] == t then
      assert OccursAt(s, t, 0);
      true
    else
      var r := Contains(s[1..], t);
      assert forall i :: OccursAt(s, t, i) && i > 0 ==> OccursAt(s[1..], t, i - 1);
      assert forall i :: OccursAt(s[1..], t, i) ==> OccursAt(s, t, i + 1);
      r
  }
}

=== FILE: wrappers.dfy ===
/** Option and Result, the failure-carrying values the model uses in place of
    Python's None and raised exceptions. */
module Wrappers {

  datatype Option<+T> = None | Some(value: T)

  datatype Result<+T, +E> = Success(value: T) | Failure(error: E)
}

=== FILE: years.dfy ===
/** The year-list parser (`parse_years_input`): comma-separated years and
    `lo-hi` ranges, kept only within 2000..2100, returned ascending without
    duplicates. */
module Years {
  import opened Text

  const MinYear: int := 2000
  const MaxYear: int := 2100

  /** Python's `range(lo, hi)`. */
  function Range(lo: int, hi: int): (r: seq<int>)
    ensures |r| == if lo < hi then hi - lo else 0
    ensures forall k :: 0 <= k < |r| ==> r[k] == lo + k
    ensures forall y :: y in r <==> lo <= y < hi
    decreases hi - lo
  {
    if lo < hi then [lo] + Range(lo + 1, hi) else []
  }

  /** What one trimmed, non-empty comma-separated part adds to the list before
      the range filter: `a-b` (split at the first dash, both sides trimmed)
      adds a..b when both sides are digit strings and a <= b; a digit string
      adds itself; anything else adds nothing. */
  function PartYears(part: string): (r: seq<int>)
    ensures StrictlyAscending(r)
  {
    if '-' in part then
      var k := FirstIndexIn(part, {'-'});
      RangeYears(Strip(part[..k]), Strip(part[k + 1..]))
    else if IsDigits(part) then [ValueOf(part)]
    else []
  }

  /** The years of a range part whose sides, trimmed, are `a` and `b`. */
  function RangeYears(a: string, b: string): seq<int> {
    if IsDigits(a) && IsDigits(b) then YearsBetween(ValueOf(a), ValueOf(b)) else []
  }

  /** `list(range(lo, hi + 1))` when `lo <= hi`, else nothing. */
  function YearsBetween(lo: int, hi: int): (r: seq<int>)
    ensures forall y :: y in r <==> lo <= y <= hi
  {
    if lo <= hi then Range(lo, hi + 1) else []
  }

  /** The list the parser's loop builds: each part's years, in part order. */
  function Collect(parts: seq<string>): seq<int> {
    Gather(PartYears, parts)
  }

  /** `f`'s lists for the parts, concatenated in part order. */
  function Gather(f: string -> seq<int>, parts: seq<string>): seq<int> {
    if parts == [] then [] else Gather(f, parts[..|parts| - 1]) + f(parts[|parts| - 1])
  }

  predicate InYearRange(y: int) {
    MinYear <= y <= MaxYear
  }

  /** `[y for y in years if 2000 <= y <= 2100]`. */
  function KeepInRange(ys: seq<int>): (r: seq<int>)
    ensures forall y :: y in r <==> y in ys && InYearRange(y)
  {
    if ys == [] then []
    else if InYearRange(ys[0]) then [ys[0]] + KeepInRange(ys[1..])
    else KeepInRange(ys[1..])
  }

  predicate StrictlyAscending(s: seq<int>) {
    forall i, j :: 0 <= i < j < |s| ==> s[i] < s[j]
  }

  /** Adds `y` to an ascending duplicate-free list, keeping it so. */
  function InsertSorted(s: seq<int>, y: int): (r: seq<int>)
    requires StrictlyAscending(s)
    ensures StrictlyAscending(r)
    ensures forall x :: x in r <==> x in s || x == y
  {
    if s == [] then [y]
    else if y < s[0] then
      var r := [y] + s;
      assert forall j :: 0 < j < |r| ==> r[j] == s[j - 1] && s[0] <= s[j - 1];
      r
    else if y == s[0] then s
    else
      var rest := InsertSorted(s[1..], y);
      assert forall x :: x in rest ==> s[0] < x;
      var r := [s[0]] + rest;
      assert forall j :: 0 < j < |r| ==> r[j] == rest[j - 1] && rest[j - 1] in rest;
      r
  }

  /** `sorted(set(ys))`. */
  function SortedDistinct(ys: seq<int>): (r: seq<int>)
    ensures StrictlyAscending(r)
    ensures forall x :: x in r <==> x in ys
  {
    if ys == [] then []
    else
      var r := InsertSorted(SortedDistinct(ys[..|ys| - 1]), ys[|ys| - 1]);
      assert ys == ys[..|ys| - 1] + [ys[|ys| - 1]];
      r
  }

  /** `parse_years_input(text)`: the result is ascending without duplicates,
      and a year is in it exactly when it lies in 2000..2100 and some part of
      the input contributes it. */
  method ParseYears(text: string) returns (years: seq<int>)
    ensures StrictlyAscending(years)
    ensures forall y :: y in years <==> InYearRange(y) && y in Collect(Pieces(text, {','}))
  {
    var found: seq<int> := [];
    var parts := Pieces(text, {','});
    for i := 0 to |parts|
      invariant found == Collect(parts[..i])
    {
      var ys := YearsOfPart(parts[i]);
      CollectStep(parts, i);
      found := found + ys;
    }
    assert parts[..|parts|] == parts;
    years := SortedDistinct(KeepInRange(found));
  }

  /** The body of the parser's loop for one trimmed part, step by step as
      the loop runs it; PartYears is the value it is proved to compute. */
  method YearsOfPart(part: string) returns (ys: seq<int>)
    ensures ys == PartYears(part)
  {
    ys := [];
    if '-' in part {
      var k := FirstIndexIn(part, {'-'});
      var a, b := Strip(part[..k]), Strip(part[k + 1..]);
      DashPartYears(part);
      if IsDigits(a) && IsDigits(b) {
        var lo, hi := ValueOf(a), ValueOf(b);
        if lo <= hi {
          ys := Range(lo, hi + 1);
        }
      }
    } else if IsDigits(part) {
      PlainPartYears(part);
      ys := [ValueOf(part)];
    } else {
      PlainPartYears(part);
    }
  }

  lemma CollectStep(parts: seq<string>, i: int)
    requires 0 <= i < |parts|
    ensures Collect(parts[..i + 1]) == Collect(parts[..i]) + PartYears(parts[i])
  {
    assert parts[..i + 1][..i] == parts[..i];
  }

  lemma PlainPartYears(part: string)
    requires '-' !in part
    ensures PartYears(part) == if IsDigits(part) then [ValueOf(part)] else []
  {
  }

  /** A year is collected exactly when one of the parts contributes it. */
  lemma CollectHas(parts: seq<string>, y: int)
    ensures y in Collect(parts) <==> exists i :: 0 <= i < |parts| && y in PartYears(parts[i])
  {
    GatherHas(PartYears, parts, y);
  }

  lemma {:induction false} GatherHas(f: string -> seq<int>, parts: seq<string>, y: int)
    ensures y in Gather(f, parts) <==> exists i :: 0 <= i < |parts| && y in f(parts[i])
  {
    if parts != [] {
      var n := |parts| - 1;
      var init := parts[..n];
      GatherHas(f, init, y);
      if y in Gather(f, parts) && y !in f(parts[n]) {
        var i :| 0 <= i < |init| && y in f(init[i]);
        assert parts[i] == init[i];
      }
      if exists i :: 0 <= i < |parts| && y in f(parts[i]) {
        var i :| 0 <= i < |parts| && y in f(parts[i]);
        if i < n {
          assert init[i] == parts[i];
        }
      }
    }
  }

  /** A range part `a-b` with digit strings on both sides contributes exactly
      the years a..b (nothing when a > b). */
  lemma RangePartYears(part: string, y: int)
    requires '-' in part
    requires IsDigits(Strip(part[..FirstIndexIn(part, {'-'})]))
    requires IsDigits(Strip(part[FirstIndexIn(part, {'-'}) + 1..]))
    ensures y in PartYears(part) <==>
              ValueOf(Strip(part[..FirstIndexIn(part, {'-'})])) <= y <= ValueOf(Strip(part[FirstIndexIn(part, {'-'}) + 1..]))
  {
    var k := FirstIndexIn(part, {'-'});
    var a, b := Strip(part[..k]), Strip(part[k + 1..]);
    DashPartYears(part);
  }

  lemma DashPartYears(part: string)
    requires '-' in part
    ensures PartYears(part) == RangeYears(Strip(part[..FirstIndexIn(part, {'-'})]), Strip(part[FirstIndexIn(part, {'-'}) + 1..]))
  {
  }

  /** A part that is neither a digit string nor a dash with digit strings on
      both sides contributes nothing. */
  lemma NonNumericPartYears(part: string)
    requires !IsDigits(part)
    requires '-' in part ==>
               !IsDigits(Strip(part[..FirstIndexIn(part, {'-'})])) || !IsDigits(Strip(part[FirstIndexIn(part, {'-'}) + 1..]))
    ensures PartYears(part) == []
  {
  }

  /** Two ascending duplicate-free lists with the same members are equal, so
      the list ParseYears returns is determined by its contract: it is
      `sorted(set(...))`. */
  lemma {:induction false} AscendingUnique(a: seq<int>, b: seq<int>)
    requires StrictlyAscending(a) && StrictlyAscending(b)
    requires forall x :: x in a <==> x in b
    ensures a == b
  {
    assert a != [] ==> a[0] in a;
    assert b != [] ==> b[0] in b;
    if a != [] && b != [] {
      HeadIsLeast(a, b[0]);
      HeadIsLeast(b, a[0]);
      assert a[0] == b[0];
      forall x ensures x in a[1..] <==> x in b[1..] {
        TailMembers(a, x);
        TailMembers(b, x);
      }
      AscendingUnique(a[1..], b[1..]);
      assert a == [a[0]] + a[1..] && b == [b[0]] + b[1..];
    }
  }

  lemma HeadIsLeast(a: seq<int>, x: int)
    requires StrictlyAscending(a) && x in a
    ensures a[0] <= x
  {
    var i :| 0 <= i < |a| && a[i] == x;
    if i > 0 {
      assert a[0] < a[i];
    }
  }

  lemma TailMembers(a: seq<int>, x: int)
    requires StrictlyAscending(a) && a != []
    ensures x in a[1..] <==> x in a && x != a[0]
  {
    if x in a[1..] {
      var i :| 0 <= i < |a| - 1 && a[1..][i] == x;
      assert a[0] < a[i + 1];
    }
    if x in a && x != a[0] {
      var i :| 0 <= i < |a| && a[i] == x;
      assert a[1..][i - 1] == x;
    }
  }
}
